=== FILE: README.md ===
# Case-interview coach: a Dafny model of its core

This project models the deterministic core of a case-interview practice
application. The core has four parts:

- **The coaching engine** (`src/lib/ai-service.ts`). It drops system
  messages. It classifies the conversation stage from the message count. It
  scores the user's engagement and structure. It picks a stage-keyed reply, a
  "thinking" note and suggestions. It attaches a weighted final score at the
  conclusion stage. It writes a threshold-based feedback report.
- **The security helpers** (`src/lib/security.ts`). These are the
  fixed-window rate limiter, the password-strength scorer, the HTML, SQL and
  regex escapers, the session-id format check and the honeypot check.
- **The validation helpers** (`src/lib/validation.ts`). These are the
  sanitisers `sanitizeHtml` and `sanitizeInput`, the `page` and `limit`
  query parameters, and the score bound of the session update.
- **Bearer-token extraction** (`src/lib/auth.ts`).

Everything is pure. The random template index becomes the parameter `pick`,
and the clock reading of the rate limiter becomes the parameter `now`. The
limiter's store is a `map` passed in and returned. Strings are `seq<char>`.
Engagement, averages and the final-score arithmetic use exact reals.
`Math.round` is `floor(x + 1/2)`.

Modules:

| file | module | contents |
|---|---|---|
| wrappers.dfy | Wrappers | `Option`, `Result` |
| text.dfy | Text | JavaScript string built-ins: `trim`, `toLowerCase`, `includes`, `endsWith`, `split`, `join`, global `replace` |
| numbers.dfy | Numbers | `Math.round`, `Math.min`, decimal rendering, `parseInt(s, 10)` |
| conversation.dfy | Conversation | roles, messages, case templates, stages, the system-message filter |
| assessment.dfy | Assessment | word counts, engagement, the keyword structure score, user progress |
| responses.dfy | Responses | reply pools, thinking, suggestions, final score, contextual response |
| engine.dfy | Engine | `generateResponse` |
| feedback.dfy | Feedback | the session feedback report and its text |
| rate_limiter.dfy | RateLimiter | `rateLimit` as a transition over the store |
| password.dfy | Password | `validatePasswordStrength` |
| escaping.dfy | Escaping | `sanitizeForHTML`, `sanitizeForSQL`, `sanitizeForRegex` |
| formats.dfy | Formats | `isValidSessionId`, `generateSessionId`, `validateHoneypot` |
| validation.dfy | Validation | `sanitizeHtml`, `sanitizeInput`, pagination, score bound |
| auth.dfy | Auth | `extractTokenFromHeader` |

Two facts about the assessor shape the model:

- The structure vocabulary has 14 keywords.
- Words are counted with `split(' ')`: a message has one word more than it
  has single spaces. An empty message counts as one word, and two spaces in
  a row add an empty word.

Several properties fall out of the model that the source does not spell out:

- `sanitizeHtml` in `src/lib/validation.ts` keeps `&` as it is. So `<` and
  the text `&lt;` come out the same (`Validation.SanitizeHtmlAmbiguous`).
  The security-module escaper has a proved decoder (`Escaping.SanitizeForHtmlRoundTrip`).
- `sanitizeInput` deletes characters after trimming. Its output can
  therefore end in a space, and a second pass can change it
  (`Validation.SanitizeInputNotIdempotent`).
- `parseInt` stops at the first non-digit, so the page parameter `"2abc"`
  is page 2 (`Validation.PageIgnoresTail`). It also skips leading white
  space, a `+` sign and leading zeros, so `" 5"`, `"+5"` and `"05"` are
  all page 5 (`Validation.PageOfSpelling`).

## Model

| member | source | states |
|---|---|---|
| Conversation.WithoutSystem | src/lib/ai-service.ts:30-32 | the result is a subsequence of the history without system messages, shorter by exactly the number of system messages, so every other message is kept in order |
| Conversation.FiltersDistribute | src/lib/ai-service.ts:30-32 | the system filter and the user filter each distribute over concatenation |
| Conversation.WithoutSystemKeepsUsers | src/lib/ai-service.ts:30-32 | dropping system messages keeps every user message, and the filter is idempotent |
| Conversation.SystemMessageInvisible | src/lib/ai-service.ts:30-32 | a system message inserted anywhere changes neither the filtered history nor the user messages |
| Conversation.AnalyzeStage | src/lib/ai-service.ts:49-58 | the stage of a history is fixed by its length alone: opening up to 2, problem clarification 3..6, framework development 7..12, analysis 13..20, conclusion above 20 |
| Conversation.StageOf | src/lib/ai-service.ts:53-57 | each stage holds exactly on its count range: at most 2, 3..6, 7..12, 13..20, above 20 |
| Conversation.StageMonotone | src/lib/ai-service.ts:49-58 | a longer conversation is never at an earlier stage |
| Conversation.ParseStage | src/lib/ai-service.ts:147 | a recognised stage name names that stage |
| Conversation.ParseStageName | src/lib/ai-service.ts:147 | every stage name is recognised as its own stage |
| Conversation.ParseStageComplete | src/lib/ai-service.ts:147 | exactly the five stage names are recognised |
| Conversation.UserMessages | src/lib/ai-service.ts:61 | the result is a subsequence of the history made of user messages, as long as the number of user messages in it, so every user message is kept in order |
| Assessment.WordCount | src/lib/ai-service.ts:62 | `split(' ')` yields one more word than the message has spaces |
| Assessment.TotalWords | src/lib/ai-service.ts:62 | every message adds at least one word; no messages means no words |
| Assessment.TotalWordsAppend | src/lib/ai-service.ts:62 | the word total of a concatenation is the sum of the two totals |
| Assessment.TotalWordsSingle | src/lib/ai-service.ts:62 | one message contributes its `split(' ')` length, its space count plus one; with the append rule, the total is the sum over the messages |
| Assessment.Engagement | src/lib/ai-service.ts:65 | engagement lies in 0..100, is 100 exactly from 250 words on, and is 2/5 of the words below that |
| Assessment.Average | src/lib/ai-service.ts:72 | the average times `max(count, 1)` gives the total back |
| Assessment.AssessUserProgress | src/lib/ai-service.ts:60-74 | over the user messages only: the message count is their number, engagement is the engagement of their word total, structure is their structure score (both in 0..100), and the average is words over `max(count, 1)` |
| Assessment.NoUserMessagesNoProgress | src/lib/ai-service.ts:60-74 | with no user messages every metric is zero |
| Assessment.ProgressIgnoresSystem | src/lib/ai-service.ts:30-36 | progress is the same with or without the system messages |
| Assessment.AssessStructure | src/lib/ai-service.ts:76-93 | the structure score lies in 0..100 |
| Assessment.KeywordsWellFormed | src/lib/ai-service.ts:81-86 | the 14 keywords are distinct, non-empty and free of spaces |
| Assessment.CountPresentIsSetSize | src/lib/ai-service.ts:88-90 | counting keywords one by one equals the size of the set of keywords present |
| Assessment.CountPresentInJoin | src/lib/ai-service.ts:78-90 | a keyword is found in the space-joined text exactly when it occurs in some single lowered message |
| Assessment.StructureCountsFoundKeywords | src/lib/ai-service.ts:76-93 | the score is 10 per distinct keyword found in some message, capped at 100 |
| Assessment.StructureOfNoMessages | src/lib/ai-service.ts:76-93 | no messages score 0 |
| Assessment.StructureGrows | src/lib/ai-service.ts:76-93 | another message never lowers the structure score |
| Assessment.RepeatedKeywordsAddNothing | src/lib/ai-service.ts:88-90 | a message whose keywords were all seen before leaves the score unchanged |
| Responses.Pool | src/lib/ai-service.ts:119-145 | every stage has three replies |
| Responses.GetResponseTemplates | src/lib/ai-service.ts:118-148 | a stage name selects its pool; any other string that is not an inherited `Object.prototype` property name falls back to the analysis pool |
| Responses.GenerateSuggestions | src/lib/ai-service.ts:160-190 | a stage name yields its three suggestions; any other string that is not an inherited `Object.prototype` property name yields none |
| Responses.IntToString | src/lib/ai-service.ts:153 | the interpolated rounded average is a minus sign exactly for negative values, then decimal digits without a leading zero, and reads back as the same integer |
| Responses.GenerateThinking | src/lib/ai-service.ts:150-158 | the note opens by naming the stage and calling the structure strong exactly above 70 (developing otherwise); it closes with the stage's directive: framework development exactly at `opening`, deeper insights exactly at `analysis`, and guiding toward conclusions for every other stage |
| Responses.LengthScore | src/lib/ai-service.ts:197 | the length score is ten points per message below 10 messages and 100 from 10 messages on |
| Responses.FinalScore | src/lib/ai-service.ts:192-204 | the score is the weighted sum rounded to nearest, and lies in 0..100 when both inputs do |
| Responses.FinalScoreMonotone | src/lib/ai-service.ts:192-204 | the final score never decreases in engagement, structure or message count |
| Responses.FinalScoreExample | src/lib/ai-service.ts:192-204 | engagement 80, structure 90 and 10 messages score 90 |
| Responses.GenerateContextualResponse | src/lib/ai-service.ts:95-116 | the reply comes from the stage's pool; a score is attached exactly at `conclusion`; thinking and suggestions are attached |
| Engine.GenerateResponse | src/lib/ai-service.ts:22-47 | the reply is in the pool of the stage the non-system count selects; the thinking note and the suggestions are those of that stage and of the progress of the non-system messages; a score is present exactly when that stage is `conclusion` (more than 20 messages), and it is the final score of that progress, in 0..100 |
| Engine.ResponseIgnoresSystem | src/lib/ai-service.ts:30-36 | inserting or pre-filtering system messages leaves the response unchanged |
| Engine.ScoreStaysOnceReached | src/lib/ai-service.ts:49-58 | once a conversation scores, any extension of it scores too |
| Engine.ScorePassesSessionUpdate | src/lib/validation.ts:102-106 | every score the engine attaches is a whole number in 0..100 |
| Feedback.OverallRating | src/lib/ai-service.ts:244 | Strong exactly when structure > 70 and engagement > 60; otherwise Good exactly when either exceeds 50; otherwise Developing |
| Feedback.BuildReport | src/lib/ai-service.ts:214-233 | each rule puts exactly one line into strengths or improvements, so the lists hold three lines together |
| Feedback.TrimmedText | src/lib/ai-service.ts:235-247 | trimming the template leaves exactly the body, which opens with the heading, states the rating and ends with the next steps |
| Feedback.GenerateSessionFeedback | src/lib/ai-service.ts:206-248 | the text is the rendered body of the report built from the progress and the number of user messages, so it carries the strengths and improvements of the three threshold rules (including the eight-message rule); it opens with the heading, contains the rating line and ends with the next-steps paragraph |
| Feedback.FeedbackIgnoresSystem | src/lib/ai-service.ts:211-212 | the feedback text is the same with or without the system messages |
| Feedback.RatingExamples | src/lib/ai-service.ts:244 | one progress each for Strong, Good and Developing |
| RateLimiter.RateLimit | src/lib/security.ts:26-66 | a new or expired window becomes `{1, now + windowMs}`; a full window is refused with 0 remaining and the store unchanged; otherwise the count rises by one with the reset time kept; other identifiers are untouched |
| RateLimiter.BoundedPreserved | src/lib/security.ts:48-59 | with a limit of at least one, no window ever counts more than the limit |
| RateLimiter.LiveWindowAdmits | src/lib/security.ts:48-65 | within a live window, a run of calls admits exactly as many as the limit still allows |
| RateLimiter.FreshWindowAdmitsAtMostMax | src/lib/security.ts:35-65 | a burst inside one fresh window admits exactly `min(calls, maxRequests)` |
| Password.ValidatePasswordStrength | src/lib/security.ts:135-169 | score in 0..7; valid exactly when score >= 4; score plus feedback lines is 6, or 7 from 12 code units on; a line appears exactly when its check fails, only the six fixed lines appear, and none twice |
| Password.FeedbackNamesFailures | src/lib/security.ts:143-164 | each feedback line appears exactly when its own requirement is unmet |
| Password.MixedPasswordIsValid | src/lib/security.ts:144-166 | eight code units with a lower-case letter, an upper-case letter and a digit are always valid |
| Password.Failed | src/lib/security.ts:140-164 | lines reported plus checks passed equals checks made |
| Escaping.SanitizeForHtml | src/lib/security.ts:194-202 | the output is what a one-pass per-character escaper writes |
| Escaping.SanitizeForHtmlIsEscapeEach | src/lib/security.ts:194-202 | the six chained replacements equal a one-pass per-character escaper |
| Escaping.SanitizeForHtmlSafe | src/lib/security.ts:194-202 | no raw `<`, `>`, `"`, `'` or `/` remains, and every `&` begins one of the six entities |
| Escaping.SanitizeForHtmlPlain | src/lib/security.ts:194-202 | text with none of the six characters is unchanged |
| Escaping.SanitizeForHtmlRoundTrip | src/lib/security.ts:194-202 | decoding the six entities gives the input back |
| Escaping.SanitizeForSql | src/lib/security.ts:204-206 | no quote, double quote, semicolon or backslash remains; the output is a subsequence that lost exactly those characters |
| Escaping.SanitizeForSqlIdempotent | src/lib/security.ts:204-206 | sanitising twice equals sanitising once |
| Escaping.SanitizeForRegex | src/lib/security.ts:208-210 | the output is one character longer per regex syntax character |
| Escaping.SanitizeForRegexLiteral | src/lib/security.ts:208-210 | the output is a pure literal pattern that matches exactly the input |
| Formats.IsValidSessionId | src/lib/security.ts:176-178 | true exactly for 64 characters, each in `[a-f0-9]` |
| Formats.GenerateSessionId | src/lib/security.ts:172-174 | the hex of 32 bytes is always a valid session id |
| Formats.ValidateHoneypot | src/lib/security.ts:264-267 | true exactly when the value is empty or all white space |
| Validation.SanitizeHtml | src/lib/validation.ts:144-152 | the output is what a one-pass escaper that keeps `&` writes |
| Validation.SanitizeHtmlIsEscapeButAmp | src/lib/validation.ts:144-152 | the five chained replacements equal a one-pass escaper that keeps `&` |
| Validation.SanitizeHtmlSafe | src/lib/validation.ts:144-152 | no raw `<`, `>`, `"`, `'` or `/` remains |
| Validation.SanitizeHtmlPlain | src/lib/validation.ts:146-151 | text with none of the five characters is unchanged, including every `&` |
| Validation.SanitizeHtmlAmbiguous | src/lib/validation.ts:146-151 | `<` and `&lt;` sanitise to the same text |
| Validation.SanitizeInput | src/lib/validation.ts:154-160 | at most 1000 characters, none of `< > " ' &`, a prefix of the trimmed input with them deleted |
| Validation.SanitizeInputKeepsClean | src/lib/validation.ts:154-160 | trimmed, clean, short input is returned unchanged |
| Validation.SanitizeInputNotIdempotent | src/lib/validation.ts:156-158 | `"a &"` becomes `"a "`, which a second pass turns into `"a"` |
| Validation.QueryNumber | src/lib/validation.ts:125 | a missing or empty parameter gives the default; a non-empty one is `NaN` exactly when no digit follows the leading white space and sign |
| Validation.ValidatePage | src/lib/validation.ts:123-126 | the page is accepted exactly when the transformed parameter is a number above 0, and then it is that number; otherwise the error is "Page must be positive" |
| Validation.ValidateLimit | src/lib/validation.ts:127-130 | the limit is accepted exactly when the transformed parameter is a number in 1..100, and then it is that number; otherwise the error is "Limit must be between 1 and 100" |
| Validation.PaginationDefaults | src/lib/validation.ts:125-129 | a missing or empty page is 1 and a missing or empty limit is 10 |
| Validation.PageRoundTrip | src/lib/validation.ts:123-126 | a decimal page is accepted as itself exactly when positive; a negative page is refused |
| Validation.LimitRoundTrip | src/lib/validation.ts:127-130 | a decimal limit is accepted as itself exactly when in 1..100; a negative limit is refused |
| Validation.PageIgnoresTail | src/lib/validation.ts:125 | text after the digits is ignored |
| Validation.PageOfSpelling | src/lib/validation.ts:123-126 | for every spelling `parseInt` reads (white space, optional sign, leading zeros, digits, non-digit tail) the page is accepted as the number exactly when the signed number is positive |
| Validation.LimitOfSpelling | src/lib/validation.ts:127-130 | for every such spelling the limit is accepted as the number exactly when the signed number is in 1..100 |
| Validation.PageAccepted | src/lib/validation.ts:123-126 | every accepted page parameter is such a spelling of the accepted page, without a minus sign |
| Validation.LimitAccepted | src/lib/validation.ts:127-130 | every accepted limit parameter is such a spelling of the accepted limit, without a minus sign |
| Auth.ExtractTokenFromHeader | src/lib/auth.ts:48-53 | a token comes back exactly when the header starts with `Bearer `, and prefix plus token is the header |
| Auth.ExtractTokenRoundTrip | src/lib/auth.ts:52 | extracting from `Bearer ` plus any token, the empty one included, gives that token |
| Auth.ExtractTokenCaseSensitive | src/lib/auth.ts:49 | a lower-case `bearer ` scheme yields no token |
| Numbers.ParseInt | src/lib/validation.ts:125 | `parseInt(s, 10)` is `NaN` exactly when no digit follows the leading white space and optional sign |
| Numbers.ParseIntReads | src/lib/validation.ts:125 | `parseInt` skips white space, a `+` sign and leading zeros, negates after `-`, and stops at the first non-digit: every such spelling of `n` reads as the signed `n` |
| Numbers.ParseIntSplit | src/lib/validation.ts:125 | every string `parseInt` reads as a number splits into such a spelling of the number read |
| Numbers.ParseIntRoundTrip | src/lib/validation.ts:125-129 | `parseInt` reads back a rendered natural number, with or without a minus sign |
| Numbers.Round | src/lib/ai-service.ts:199 | the rounded value is within one half of the input, halves rounding up |
| Text.Trim | src/lib/ai-service.ts:247 | the result is a slice of the input with only white space before and after it and no white space at either of its ends; it is empty exactly for all-white input |
| Text.SplitCount | src/lib/ai-service.ts:62 | `split` yields one more piece than there are separators |
| Text.JoinSplit | src/lib/ai-service.ts:62 | joining the pieces with the separator gives the string back |
| Text.IncludesIff | src/lib/ai-service.ts:89 | the left-to-right search succeeds exactly when the needle occurs |
| Text.Remove | src/lib/security.ts:205 | deletion leaves a subsequence without the deleted characters, shorter by their count |

## Left out

- Pages, components, route handlers and middleware: the UI and the HTTP
  layer. The message route counts the newest user message twice when it asks
  for feedback. The model takes the message list as given.
- Database models, cryptography (`hashData`, `encrypt`, `decrypt`, CSRF
  tokens), bcrypt and JWT, Zod's parsing machinery, axios and the logger.
  These are foreign code or I/O.
- `Math.random` and `Date.now()`. They are the parameters `pick` and `now`.
  The random bytes of `generateSessionId` are a parameter too.
- The `Math.random` template index is taken below the pool size. The
  source's `Math.floor(Math.random() * responses.length)` is always in range.
- IEEE floating point: engagement, averages and the final score use exact reals.
- Formatting of the average in the thinking note is modelled for integers
  only. JavaScript's exponent notation from 1e21 on is not modelled.
- UTF-16: strings are sequences of code points. Password length counts
  UTF-16 units explicitly. `substring(0, 1000)` in `sanitizeInput` and the
  search in `includes` work on code points, so a surrogate pair is never split.
- `toLowerCase` is ASCII only. Non-ASCII capitals are not lowered. One of
  them, the Kelvin sign, lowers to `k` in JavaScript. So "MAR\u212AET" finds
  `market` in the source but not in the model.
- The other fields of the Zod schemas (status enum, feedback length,
  message content, registration fields) are not modelled. Only the page,
  limit and score bounds are.
- Responses.GenerateThinking: the contract describes the first and the last
  sentence, not the engagement sentence in the middle.
- Responses.GetResponseTemplates: the lookup `templates[stage]` also finds
  the properties every object inherits (`constructor`, `toString`,
  `__proto__` and the rest of `Responses.InheritedNames`). For those names
  the source returns the inherited value, not a list of replies, and the model
  returns the analysis pool. The fallback clause is stated for the other names
  only. `generateResponse` never passes such a name, since its stage always
  comes from `analyzeConversationStage`.
- Responses.GenerateSuggestions: the same holds for `suggestionMap[stage]`.
  For an inherited property name the source returns the inherited value and
  the model returns no suggestions. The "none" clause is stated for the other
  names only.
- Responses.GenerateContextualResponse: for an inherited property name the
  source's reply would be `undefined`. The model's reply comes from the
  analysis pool. No stage computed by the engine is such a name.
- Assessment.AssessStructure: its own contract gives only the range. The
  exact value, 10 per distinct keyword found and capped at 100, is stated by
  `Assessment.StructureCountsFoundKeywords`.

=== FILE: assessment.dfy ===
/** The progress assessor of the coaching engine (`assessUserProgress` and
    `assessStructure` in src/lib/ai-service.ts): engagement from word counts,
    structure from the presence of structuring vocabulary. */
module Assessment {
  import opened Conversation
  import Text
  import Numbers

  /** The metrics the assessor reports for a history. */
  datatype Progress = Progress(
    engagement: real,
    structure: int,
    messageCount: nat,
    averageMessageLength: real)

  /** `content.split(' ').length`: one more than the number of spaces, so the
      empty message counts as one word and so does "a". */
  function WordCount(s: string): (r: nat)
    ensures r == Text.Count(s, ' ') + 1
  {
    Text.SplitCount(s, ' ');
    |Text.Split(s, ' ')|
  }

  /** Sum of the word counts of `ms`; every message contributes at least one. */
  function TotalWords(ms: seq<Message>): (r: nat)
    ensures r >= |ms|
    ensures |ms| == 0 ==> r == 0
    decreases |ms|
  {
    if |ms| == 0 then 0 else WordCount(ms[0].content) + TotalWords(ms[1..])
  }

  /** The word total of a concatenation is the sum of the two totals. */
  lemma {:induction false} TotalWordsAppend(a: seq<Message>, b: seq<Message>)
    ensures TotalWords(a + b) == TotalWords(a) + TotalWords(b)
    decreases |a|
  {
    if |a| == 0 {
      assert a + b == b;
    } else {
      assert (a + b)[0] == a[0];
      assert (a + b)[1..] == a[1..] + b;
      TotalWordsAppend(a[1..], b);
    }
  }

  /** A single message contributes its `split(' ')` length; with
      `TotalWordsAppend` this makes the total the sum of the per-message
      word counts. */
  lemma TotalWordsSingle(m: Message)
    ensures TotalWords([m]) == WordCount(m.content)
    ensures TotalWords([m]) == Text.Count(m.content, ' ') + 1
  {
    assert [m][1..] == [];
  }

  /** `Math.min(100, (totalWords / 50) * 20)`. */
  function Engagement(totalWords: nat): (r: real)
    ensures 0.0 <= r <= 100.0
    ensures r == 100.0 <==> totalWords >= 250
    ensures totalWords < 250 ==> r * 5.0 == totalWords as real * 2.0
  {
    Numbers.Min(100.0, (totalWords as real / 50.0) * 20.0)
  }

  /** The fourteen structuring keywords, in the order the source lists them. */
  const StructureKeywords: seq<string> := [
    "first", "second", "third", "finally",
    "hypothesis", "assumption", "framework",
    "revenue", "cost", "profit", "market",
    "customer", "competition", "strategy"
  ]

  /** No keyword is listed twice, none is empty and none holds a space. */
  lemma KeywordsWellFormed()
    ensures forall i, j :: 0 <= i < j < |StructureKeywords| ==> StructureKeywords[i] != StructureKeywords[j]
    ensures forall i :: 0 <= i < |StructureKeywords| ==> |StructureKeywords[i]| > 0 && ' ' !in StructureKeywords[i]
  {
  }

  /** The lower-cased contents of the messages, in order. */
  function LowerContents(ms: seq<Message>): (r: seq<string>)
    ensures |r| == |ms|
    ensures forall i :: 0 <= i < |ms| ==> r[i] == Text.Lower(ms[i].content)
  {
    seq(|ms|, i requires 0 <= i < |ms| => Text.Lower(ms[i].content))
  }

  /** The text `assessStructure` searches: lower-cased contents joined by spaces. */
  function StructureText(users: seq<Message>): string {
    Text.Join(" ", LowerContents(users))
  }

  /** How many of `keys` occur in `text`. */
  function CountPresent(keys: seq<string>, text: string): (r: nat)
    ensures r <= |keys|
    decreases |keys|
  {
    if |keys| == 0 then 0
    else (if Text.Includes(text, keys[0]) then 1 else 0) + CountPresent(keys[1..], text)
  }

  /** `assessStructure`: ten points per keyword found, capped at 100. */
  function AssessStructure(users: seq<Message>): (r: int)
    ensures 0 <= r <= 100
  {
    var n := CountPresent(StructureKeywords, StructureText(users));
    if 10 * n < 100 then 10 * n else 100
  }

  /** The keys found in at least one of the messages (lower-cased). */
  ghost function FoundIn(keys: seq<string>, users: seq<Message>): set<string> {
    set k | k in keys && exists i :: 0 <= i < |users| && Text.Includes(Text.Lower(users[i].content), k)
  }

  /** The structuring keywords found in at least one of the messages. */
  ghost function FoundKeywords(users: seq<Message>): set<string> {
    FoundIn(StructureKeywords, users)
  }

  /** The keys among `keys` that occur in `text`. */
  ghost function PresentSet(keys: seq<string>, text: string): set<string>
    decreases |keys|
  {
    if |keys| == 0 then {}
    else (if Text.Includes(text, keys[0]) then {keys[0]} else {}) + PresentSet(keys[1..], text)
  }

  lemma {:induction false} PresentSetMembers(keys: seq<string>, text: string, k: string)
    ensures k in PresentSet(keys, text) <==> k in keys && Text.Includes(text, k)
    decreases |keys|
  {
    if |keys| > 0 {
      PresentSetMembers(keys[1..], text, k);
      assert k in keys <==> k == keys[0] || k in keys[1..] by {
        assert keys == [keys[0]] + keys[1..];
      }
    }
  }

  lemma {:induction false} CountPresentIsSetSize(keys: seq<string>, text: string)
    requires forall i, j :: 0 <= i < j < |keys| ==> keys[i] != keys[j]
    ensures CountPresent(keys, text) == |PresentSet(keys, text)|
    decreases |keys|
  {
    if |keys| > 0 {
      CountPresentIsSetSize(keys[1..], text);
      PresentSetMembers(keys[1..], text, keys[0]);
      assert keys[0] !in keys[1..] by {
        forall j | 0 <= j < |keys[1..]| ensures keys[1..][j] != keys[0] {
          assert keys[1..][j] == keys[j + 1];
        }
      }
    }
  }

  /** For distinct non-empty keys without spaces, the number found in the
      joined text is the number of keys found in some single message. */
  lemma CountPresentInJoin(keys: seq<string>, users: seq<Message>)
    requires forall i, j :: 0 <= i < j < |keys| ==> keys[i] != keys[j]
    requires forall i :: 0 <= i < |keys| ==> |keys[i]| > 0 && ' ' !in keys[i]
    ensures CountPresent(keys, StructureText(users)) == |FoundIn(keys, users)|
  {
    var text := StructureText(users);
    CountPresentIsSetSize(keys, text);
    forall k ensures k in PresentSet(keys, text) <==> k in FoundIn(keys, users) {
      PresentSetMembers(keys, text, k);
      if k in keys {
        Text.IncludesJoin(LowerContents(users), ' ', k);
      }
    }
    assert PresentSet(keys, text) == FoundIn(keys, users);
  }

  /** The structure score is ten points per distinct keyword that appears in
      some user message, capped at 100: neither repetition of a keyword nor
      the joining of messages changes it. */
  lemma StructureCountsFoundKeywords(users: seq<Message>)
    ensures AssessStructure(users) == if 10 * |FoundKeywords(users)| < 100 then 10 * |FoundKeywords(users)| else 100
  {
    KeywordsWellFormed();
    CountPresentInJoin(StructureKeywords, users);
  }

  /** With no user messages there is nothing to find. */
  lemma StructureOfNoMessages()
    ensures AssessStructure([]) == 0
  {
    StructureCountsFoundKeywords([]);
    assert FoundKeywords([]) == {};
  }

  /** Adding a message never lowers the structure score. */
  lemma StructureGrows(users: seq<Message>, m: Message)
    ensures AssessStructure(users) <= AssessStructure(users + [m])
  {
    var us := users + [m];
    StructureCountsFoundKeywords(users);
    StructureCountsFoundKeywords(us);
    forall k | k in FoundKeywords(users) ensures k in FoundKeywords(us) {
      var i :| 0 <= i < |users| && Text.Includes(Text.Lower(users[i].content), k);
      assert us[i] == users[i];
    }
    assert FoundKeywords(users) <= FoundKeywords(us);
    SubsetSize(FoundKeywords(users), FoundKeywords(us));
  }

  /** A message whose keywords were all found before adds nothing, however
      often it repeats them. */
  lemma RepeatedKeywordsAddNothing(users: seq<Message>, m: Message)
    requires forall k :: k in StructureKeywords && Text.Includes(Text.Lower(m.content), k) ==> k in FoundKeywords(users)
    ensures AssessStructure(users + [m]) == AssessStructure(users)
  {
    var us := users + [m];
    StructureCountsFoundKeywords(users);
    StructureCountsFoundKeywords(us);
    forall k | k in FoundKeywords(users) ensures k in FoundKeywords(us) {
      var i :| 0 <= i < |users| && Text.Includes(Text.Lower(users[i].content), k);
      assert us[i] == users[i];
    }
    forall k | k in FoundKeywords(us) ensures k in FoundKeywords(users) {
      var i :| 0 <= i < |us| && Text.Includes(Text.Lower(us[i].content), k);
      if i == |users| {
        assert us[i] == m;
      } else {
        assert us[i] == users[i];
      }
    }
    assert FoundKeywords(us) == FoundKeywords(users);
  }

  lemma SubsetSize<T>(a: set<T>, b: set<T>)
    requires a <= b
    ensures |a| <= |b|
  {
    assert b == a + (b - a);
  }

  function MaxOne(n: nat): nat {
    if n < 1 then 1 else n
  }

  /** `totalWords / Math.max(count, 1)`. */
  function Average(total: nat, count: nat): (r: real)
    ensures r * MaxOne(count) as real == total as real
  {
    var d := MaxOne(count) as real;
    assert (total as real / d) * d == total as real;
    total as real / d
  }

  /** `assessUserProgress`: metrics over the user messages of `history`. */
  function AssessUserProgress(history: seq<Message>): (p: Progress)
    ensures p.messageCount == |UserMessages(history)|
    ensures p.engagement == Engagement(TotalWords(UserMessages(history)))
    ensures p.structure == AssessStructure(UserMessages(history))
    ensures 0.0 <= p.engagement <= 100.0 && 0 <= p.structure <= 100
    ensures p.averageMessageLength == Average(TotalWords(UserMessages(history)), p.messageCount)
  {
    var users := UserMessages(history);
    var total := TotalWords(users);
    Progress(Engagement(total), AssessStructure(users), |users|, Average(total, |users|))
  }

  /** A history without user messages scores zero on every metric. */
  lemma NoUserMessagesNoProgress(history: seq<Message>)
    requires UserMessages(history) == []
    ensures AssessUserProgress(history).engagement == 0.0
    ensures AssessUserProgress(history).structure == 0
    ensures AssessUserProgress(history).messageCount == 0
    ensures AssessUserProgress(history).averageMessageLength == 0.0
  {
    StructureOfNoMessages();
    var p := AssessUserProgress(history);
    assert p == AssessUserProgress(history);
    ZeroWordsZeroMetrics(UserMessages(history));
  }

  lemma ZeroWordsZeroMetrics(users: seq<Message>)
    requires users == []
    ensures Engagement(TotalWords(users)) == 0.0
    ensures Average(TotalWords(users), |users|) == 0.0
  {
  }

  /** System messages do not influence the assessment. */
  lemma ProgressIgnoresSystem(history: seq<Message>)
    ensures AssessUserProgress(WithoutSystem(history)) == AssessUserProgress(history)
  {
    WithoutSystemKeepsUsers(history);
  }
}

=== FILE: auth.dfy ===
/** `extractTokenFromHeader` of src/lib/auth.ts: the bearer token of an
    `Authorization` header. */
module Auth {
  import opened Wrappers

  /** The scheme prefix, seven characters including the space. */
  const BearerPrefix := "Bearer "

  /** `extractTokenFromHeader`: a missing or empty header, or one not
      starting with `Bearer `, gives no token; otherwise everything after
      the prefix, which may be empty. */
  function ExtractTokenFromHeader(authHeader: Option<string>): (r: Option<string>)
    ensures r.Some? <==> authHeader.Some? && BearerPrefix <= authHeader.value
    ensures r.Some? ==> authHeader.value == BearerPrefix + r.value
  {
    if authHeader.None? || authHeader.value == "" || !(BearerPrefix <= authHeader.value) then None
    else Some(authHeader.value[|BearerPrefix|..])
  }

  /** Whatever token is sent after the prefix comes back unchanged. */
  lemma ExtractTokenRoundTrip(token: string)
    ensures ExtractTokenFromHeader(Some(BearerPrefix + token)) == Some(token)
  {
    assert (BearerPrefix + token)[|BearerPrefix|..] == token;
  }

  /** The scheme is matched case-sensitively. */
  lemma ExtractTokenCaseSensitive(token: string)
    ensures ExtractTokenFromHeader(Some("bearer " + token)).None?
  {
  }
}

=== FILE: conversation.dfy ===
/** Conversation data and the stage classifier of the coaching engine
    (`analyzeConversationStage` and the system-message filter of
    `generateResponse` in src/lib/ai-service.ts). */
module Conversation {
  import opened Wrappers
  import Text

  datatype Role = User | Assistant | System

  /** A chat turn as the engine sees it: only the role and the text matter. */
  datatype Message = Message(role: Role, content: string)

  datatype Difficulty = Beginner | Intermediate | Advanced

  /** The scenario a session practises. The engine passes `industry` along but
      no decision depends on any field. */
  datatype CaseTemplate = CaseTemplate(
    title: string,
    description: string,
    industry: string,
    difficulty: Difficulty,
    estimatedDuration: int,
    systemPrompt: string,
    initialMessage: string,
    tags: seq<string>,
    isActive: bool)

  /** The five coaching stages, in conversation order. */
  datatype Stage = Opening | ProblemClarification | FrameworkDevelopment | Analysis | Conclusion

  /** Position of a stage in conversation order. */
  function Rank(s: Stage): nat {
    match s
    case Opening => 0
    case ProblemClarification => 1
    case FrameworkDevelopment => 2
    case Analysis => 3
    case Conclusion => 4
  }

  /** The string the source uses for each stage. */
  function StageName(s: Stage): string {
    match s
    case Opening => "opening"
    case ProblemClarification => "problem_clarification"
    case FrameworkDevelopment => "framework_development"
    case Analysis => "analysis"
    case Conclusion => "conclusion"
  }

  /** Reads a stage name back; any other string is not a stage. */
  function ParseStage(name: string): (r: Option<Stage>)
    ensures r.Some? ==> StageName(r.value) == name
  {
    if name == "opening" then Some(Opening)
    else if name == "problem_clarification" then Some(ProblemClarification)
    else if name == "framework_development" then Some(FrameworkDevelopment)
    else if name == "analysis" then Some(Analysis)
    else if name == "conclusion" then Some(Conclusion)
    else None
  }

  /** Every stage name parses back to its stage, so names are distinct. */
  lemma ParseStageName(s: Stage)
    ensures ParseStage(StageName(s)) == Some(s)
  {
  }

  /** `ParseStage` recognises exactly the five stage names. */
  lemma ParseStageComplete(name: string)
    ensures ParseStage(name).None? <==> forall s :: name != StageName(s)
    ensures forall s :: name == StageName(s) ==> ParseStage(name) == Some(s)
  {
    forall s | name == StageName(s)
      ensures ParseStage(name) == Some(s)
    {
      ParseStageName(s);
    }
  }

  /** The stage for a conversation of `count` non-system messages. */
  function StageOf(count: nat): (r: Stage)
    ensures r == Opening <==> count <= 2
    ensures r == ProblemClarification <==> 3 <= count <= 6
    ensures r == FrameworkDevelopment <==> 7 <= count <= 12
    ensures r == Analysis <==> 13 <= count <= 20
    ensures r == Conclusion <==> count > 20
  {
    if count <= 2 then Opening
    else if count <= 6 then ProblemClarification
    else if count <= 12 then FrameworkDevelopment
    else if count <= 20 then Analysis
    else Conclusion
  }

  /** `analyzeConversationStage`: the stage depends only on the length of the
      history it is given, through the thresholds 2, 6, 12 and 20. */
  function AnalyzeStage(history: seq<Message>): (r: Stage)
    ensures r == Opening <==> |history| <= 2
    ensures r == ProblemClarification <==> 3 <= |history| <= 6
    ensures r == FrameworkDevelopment <==> 7 <= |history| <= 12
    ensures r == Analysis <==> 13 <= |history| <= 20
    ensures r == Conclusion <==> |history| > 20
  {
    StageOf(|history|)
  }

  /** A longer conversation never sits at an earlier stage. */
  lemma StageMonotone(m: nat, n: nat)
    requires m <= n
    ensures Rank(StageOf(m)) <= Rank(StageOf(n))
  {
  }

  /** Number of messages of `ms` whose role is `role`. */
  function RoleCount(ms: seq<Message>, role: Role): nat
    decreases |ms|
  {
    if |ms| == 0 then 0 else (if ms[0].role == role then 1 else 0) + RoleCount(ms[1..], role)
  }

  /** The filter of `generateResponse`: every message whose role is not
      `system`, in order. The result is a subsequence of `ms` without system
      messages that is shorter than `ms` by exactly its system messages, so
      every other message is kept. */
  function WithoutSystem(ms: seq<Message>): (r: seq<Message>)
    ensures |r| == |ms| - RoleCount(ms, System)
    ensures forall i :: 0 <= i < |r| ==> r[i].role != System
    ensures Text.IsSubsequence(r, ms)
    decreases |ms|
  {
    if |ms| == 0 then []
    else if ms[0].role == System then WithoutSystem(ms[1..])
    else
      var r := [ms[0]] + WithoutSystem(ms[1..]);
      assert r[1..] == WithoutSystem(ms[1..]);
      r
  }

  /** `messages.filter(m => m.role === 'user')`: a subsequence of `ms` made of
      user messages, as long as the number of user messages in `ms`. */
  function UserMessages(ms: seq<Message>): (r: seq<Message>)
    ensures |r| == RoleCount(ms, User)
    ensures forall i :: 0 <= i < |r| ==> r[i].role == User
    ensures Text.IsSubsequence(r, ms)
    decreases |ms|
  {
    if |ms| == 0 then []
    else if ms[0].role == User then
      var r := [ms[0]] + UserMessages(ms[1..]);
      assert r[1..] == UserMessages(ms[1..]);
      r
    else UserMessages(ms[1..])
  }

  /** Both filters distribute over concatenation. */
  lemma FiltersDistribute(a: seq<Message>, b: seq<Message>)
    ensures WithoutSystem(a + b) == WithoutSystem(a) + WithoutSystem(b)
    ensures UserMessages(a + b) == UserMessages(a) + UserMessages(b)
  {
    WithoutSystemDistributes(a, b);
    UserMessagesDistributes(a, b);
  }

  lemma {:induction false} WithoutSystemDistributes(a: seq<Message>, b: seq<Message>)
    ensures WithoutSystem(a + b) == WithoutSystem(a) + WithoutSystem(b)
    decreases |a|
  {
    if |a| == 0 {
      assert a + b == b;
    } else {
      assert (a + b)[0] == a[0];
      assert (a + b)[1..] == a[1..] + b;
      WithoutSystemDistributes(a[1..], b);
    }
  }

  lemma {:induction false} UserMessagesDistributes(a: seq<Message>, b: seq<Message>)
    ensures UserMessages(a + b) == UserMessages(a) + UserMessages(b)
    decreases |a|
  {
    if |a| == 0 {
      assert a + b == b;
    } else {
      assert (a + b)[0] == a[0];
      assert (a + b)[1..] == a[1..] + b;
      UserMessagesDistributes(a[1..], b);
    }
  }

  /** Dropping system messages keeps every user message, in order, and a
      second pass of the filter changes nothing. */
  lemma {:induction false} WithoutSystemKeepsUsers(ms: seq<Message>)
    ensures UserMessages(WithoutSystem(ms)) == UserMessages(ms)
    ensures WithoutSystem(WithoutSystem(ms)) == WithoutSystem(ms)
    decreases |ms|
  {
    if |ms| > 0 {
      WithoutSystemKeepsUsers(ms[1..]);
      FiltersDistribute([ms[0]], WithoutSystem(ms[1..]));
      assert [ms[0]][1..] == [];
    }
  }

  /** A system message inserted anywhere is invisible to the filter. */
  lemma SystemMessageInvisible(a: seq<Message>, b: seq<Message>, content: string)
    ensures WithoutSystem(a + [Message(System, content)] + b) == WithoutSystem(a + b)
    ensures UserMessages(a + [Message(System, content)] + b) == UserMessages(a + b)
  {
    var m := [Message(System, content)];
    assert WithoutSystem(m) == [] && UserMessages(m) == [] by {
      assert m[1..] == [];
    }
    FiltersDistribute(a + m, b);
    FiltersDistribute(a, m);
    FiltersDistribute(a, b);
    assert a + m + b == (a + m) + b;
    assert WithoutSystem(a) + [] == WithoutSystem(a);
    assert UserMessages(a) + [] == UserMessages(a);
  }
}

=== FILE: engine.dfy ===
/** The coaching façade (`generateResponse` in src/lib/ai-service.ts): system
    messages are dropped, then the stage and the progress of what remains
    drive the contextual response. */
module Engine {
  import opened Wrappers
  import opened Conversation
  import opened Assessment
  import opened Responses
  import Validation

  /** `generateResponse`, with the random template index passed in as `pick`.
      The reply comes from the pool of the stage that the number of
      non-system messages selects; the thinking note and the suggestions are
      those of that stage and of the progress of the non-system messages; a
      score in 0..100, the final score of that progress, is attached exactly
      when more than twenty non-system messages have been exchanged. */
  function GenerateResponse(
    template: CaseTemplate, messages: seq<Message>, userMessage: string, pick: nat): (r: AIResponse)
    requires pick < PoolSize
    ensures r.content in Pool(StageOf(|WithoutSystem(messages)|))
    ensures r.score.Some? <==> |WithoutSystem(messages)| > 20
    ensures r.score.Some? <==> AnalyzeStage(WithoutSystem(messages)) == Conclusion
    ensures r.score.Some? ==> r.score.value == FinalScore(AssessUserProgress(WithoutSystem(messages)))
    ensures r.score.Some? ==> 0 <= r.score.value <= 100
    ensures r.thinking == Some(GenerateThinking(userMessage, StageName(StageOf(|WithoutSystem(messages)|)),
                                                AssessUserProgress(WithoutSystem(messages))))
    ensures r.suggestions == Some(SuggestionList(StageOf(|WithoutSystem(messages)|)))
    ensures r.feedback.None?
  {
    var history := WithoutSystem(messages);
    var stage := AnalyzeStage(history);
    var progress := AssessUserProgress(history);
    assert stage == StageOf(|history|);
    ParseStageName(stage);
    assert GenerateSuggestions(StageName(stage), template.industry) == SuggestionList(stage);
    GenerateContextualResponse(template, userMessage, StageName(stage), progress, pick)
  }

  /** System messages never influence the response: filtering them first,
      or inserting one anywhere, gives the same result. */
  lemma ResponseIgnoresSystem(
    template: CaseTemplate, a: seq<Message>, b: seq<Message>, content: string, userMessage: string, pick: nat)
    requires pick < PoolSize
    ensures GenerateResponse(template, a + b, userMessage, pick)
         == GenerateResponse(template, WithoutSystem(a + b), userMessage, pick)
    ensures GenerateResponse(template, a + [Message(System, content)] + b, userMessage, pick)
         == GenerateResponse(template, a + b, userMessage, pick)
  {
    WithoutSystemKeepsUsers(a + b);
    SystemMessageInvisible(a, b, content);
  }

  /** Once a conversation scores, every longer one scores too: the score is
      never withdrawn as messages accumulate. */
  lemma ScoreStaysOnceReached(
    template: CaseTemplate, messages: seq<Message>, more: seq<Message>, userMessage: string, pick: nat)
    requires pick < PoolSize
    requires GenerateResponse(template, messages, userMessage, pick).score.Some?
    ensures GenerateResponse(template, messages + more, userMessage, pick).score.Some?
  {
    FiltersDistribute(messages, more);
  }

  /** Every score the engine attaches to a reply passes the score bound of
      the session-update schema. */
  lemma ScorePassesSessionUpdate(
    template: CaseTemplate, messages: seq<Message>, userMessage: string, pick: nat)
    requires pick < PoolSize
    ensures var r := GenerateResponse(template, messages, userMessage, pick);
      r.score.Some? ==> Validation.ScoreAccepted(r.score.value as real)
  {
  }
}

=== FILE: escaping.dfy ===
/** The context-specific escapers of src/lib/security.ts: `sanitizeForHTML`,
    `sanitizeForSQL` and `sanitizeForRegex`. */
module Escaping {
  import opened Wrappers
  import Text

  /** The entity `sanitizeForHTML` writes for each of its six characters;
      any other character stands for itself. */
  function HtmlEntity(c: char): string {
    if c == '&' then "&amp;"
    else if c == '<' then "&lt;"
    else if c == '>' then "&gt;"
    else if c == '"' then "&quot;"
    else if c == '\'' then "&#x27;"
    else if c == '/' then "&#x2F;"
    else [c]
  }

  /** The reference escaper: each character replaced by its entity in one pass. */
  function EscapeEach(s: string): string
    decreases |s|
  {
    if |s| == 0 then "" else HtmlEntity(s[0]) + EscapeEach(s[1..])
  }

  /** The six characters in the order `sanitizeForHTML` replaces them. */
  const HtmlOrder: string := "&<>\"'/"

  /** Passes `k` to 5 of `sanitizeForHTML`: pass `k` replaces every
      `HtmlOrder[k]` by its entity. */
  function PassesFrom(s: string, k: nat): string
    requires k <= |HtmlOrder|
    decreases |HtmlOrder| - k
  {
    if k == |HtmlOrder| then s
    else PassesFrom(Text.ReplaceAll(s, HtmlOrder[k], HtmlEntity(HtmlOrder[k])), k + 1)
  }

  /** `sanitizeForHTML`: six global replacements, ampersand first. The chain
      has the effect of the one-pass escaper. */
  function SanitizeForHtml(input: string): (r: string)
    ensures r == EscapeEach(input)
  {
    SanitizeForHtmlIsEscapeEach(input);
    PassesFrom(input, 0)
  }

  /** Replacement passes work piecewise. */
  lemma {:induction false} PassesFromAppend(a: string, b: string, k: nat)
    requires k <= |HtmlOrder|
    ensures PassesFrom(a + b, k) == PassesFrom(a, k) + PassesFrom(b, k)
    decreases |HtmlOrder| - k
  {
    if k < |HtmlOrder| {
      var c := HtmlOrder[k];
      Text.ReplaceAllAppend(a, b, c, HtmlEntity(c));
      PassesFromAppend(Text.ReplaceAll(a, c, HtmlEntity(c)), Text.ReplaceAll(b, c, HtmlEntity(c)), k + 1);
    }
  }

  /** The characters entities are spelled with. */
  predicate EntityChar(c: char) {
    c == '&' || c == '#' || c == ';' || ('a' <= c <= 'z') || ('A' <= c <= 'Z') || ('0' <= c <= '9')
  }

  /** `e` is spelled with entity characters only. */
  predicate Spelled(e: string) {
    forall i :: 0 <= i < |e| ==> EntityChar(e[i])
  }

  lemma EntitySpelled(c: char)
    requires c in HtmlOrder
    ensures Spelled(HtmlEntity(c))
  {
    if c == '&' {
      assert HtmlEntity(c) == "&amp;";
    }
  }

  /** Once the ampersand pass is over, an entity stays as it is: the later
      passes replace characters no entity is spelled with. */
  lemma {:induction false} EntityStays(e: string, k: nat)
    requires 1 <= k <= |HtmlOrder| && Spelled(e)
    ensures PassesFrom(e, k) == e
    decreases |HtmlOrder| - k
  {
    if k < |HtmlOrder| {
      assert !EntityChar(HtmlOrder[k]);
      Text.ReplaceAllAbsent(e, HtmlOrder[k], HtmlEntity(HtmlOrder[k]));
      EntityStays(e, k + 1);
    }
  }

  /** A character the first `k` passes missed comes out of the rest as its entity. */
  lemma {:induction false} CharPasses(c: char, k: nat)
    requires k <= |HtmlOrder|
    requires forall j :: 0 <= j < k ==> HtmlOrder[j] != c
    ensures PassesFrom([c], k) == HtmlEntity(c)
    decreases |HtmlOrder| - k
  {
    if k == |HtmlOrder| {
      assert c !in HtmlOrder;
    } else {
      var x := HtmlOrder[k];
      Text.ReplaceAllSingle(c, x, HtmlEntity(x));
      if c == x {
        EntitySpelled(c);
        EntityStays(HtmlEntity(c), k + 1);
      } else {
        CharPasses(c, k + 1);
      }
    }
  }

  /** The chain of six replacements is the one-pass escaper. */
  lemma {:induction false} SanitizeForHtmlIsEscapeEach(s: string)
    ensures PassesFrom(s, 0) == EscapeEach(s)
    decreases |s|
  {
    if |s| == 0 {
    } else {
      assert s == [s[0]] + s[1..];
      PassesFromAppend([s[0]], s[1..], 0);
      CharPasses(s[0], 0);
      SanitizeForHtmlIsEscapeEach(s[1..]);
    }
  }

  /** Which of the six entities `t` begins with, as a position in
      `HtmlOrder`; `|HtmlOrder|` when it begins with none. */
  function LeadingEntity(t: string): (k: nat)
    ensures k <= |HtmlOrder|
    ensures k < |HtmlOrder| ==> HtmlEntity(HtmlOrder[k]) <= t
  {
    if |t| == 0 || t[0] != '&' then |HtmlOrder|
    else if "&amp;" <= t then 0
    else if "&lt;" <= t then 1
    else if "&gt;" <= t then 2
    else if "&quot;" <= t then 3
    else if "&#x27;" <= t then 4
    else if "&#x2F;" <= t then 5
    else |HtmlOrder|
  }

  /** The unescaper that undoes `sanitizeForHTML`: each of the six entities
      becomes its character again, everything else is copied. */
  function DecodeHtml(t: string): string
    decreases |t|
  {
    if |t| == 0 then ""
    else
      var k := LeadingEntity(t);
      if k < |HtmlOrder| then [HtmlOrder[k]] + DecodeHtml(t[|HtmlEntity(HtmlOrder[k])|..])
      else [t[0]] + DecodeHtml(t[1..])
  }

  /** The entity of a character is recognised as that character's and
      nothing else; any other character starts no entity. */
  lemma LeadingEntityOf(c: char, rest: string)
    ensures var k := LeadingEntity(HtmlEntity(c) + rest);
      (k < |HtmlOrder| <==> c in HtmlOrder) && (k < |HtmlOrder| ==> HtmlOrder[k] == c)
  {
    var t := HtmlEntity(c) + rest;
    if c == '&' {
      assert t[..5] == "&amp;";
    } else if c == '<' {
      assert t[..4] == "&lt;";
      assert t[1] == 'l';
    } else if c == '>' {
      assert t[..4] == "&gt;";
      assert t[1] == 'g';
    } else if c == '"' {
      assert t[..6] == "&quot;";
      assert t[1] == 'q';
    } else if c == '\'' {
      assert t[..6] == "&#x27;";
      assert t[1] == '#' && t[4] == '7';
    } else if c == '/' {
      assert t[..6] == "&#x2F;";
      assert t[1] == '#' && t[4] == 'F';
    } else {
      assert t[0] == c;
    }
  }

  /** An escaped character is recognised as what it was. */
  lemma DecodeEntity(c: char, rest: string)
    ensures DecodeHtml(HtmlEntity(c) + rest) == [c] + DecodeHtml(rest)
  {
    var t := HtmlEntity(c) + rest;
    LeadingEntityOf(c, rest);
    var k := LeadingEntity(t);
    if k < |HtmlOrder| {
      assert t[|HtmlEntity(HtmlOrder[k])|..] == rest;
    } else {
      assert HtmlEntity(c) == [c];
      assert t[0] == c && t[1..] == rest;
    }
  }

  /** `sanitizeForHTML` loses nothing: decoding its output gives the input back. */
  lemma SanitizeForHtmlRoundTrip(s: string)
    ensures DecodeHtml(SanitizeForHtml(s)) == s
  {
    DecodeEscapeEach(s);
  }

  lemma {:induction false} DecodeEscapeEach(s: string)
    ensures DecodeHtml(EscapeEach(s)) == s
    decreases |s|
  {
    if |s| > 0 {
      DecodeEntity(s[0], EscapeEach(s[1..]));
      DecodeEscapeEach(s[1..]);
      assert s == [s[0]] + s[1..];
    }
  }

  /** Characters `sanitizeForHTML` leaves nowhere raw in its output. */
  predicate RawHtmlFree(r: string) {
    forall i :: 0 <= i < |r| ==> r[i] == '&' || r[i] !in HtmlOrder
  }

  /** Every ampersand of `r` opens one of the six entities. */
  predicate AmpersandsOpenEntities(r: string) {
    forall i :: 0 <= i < |r| && r[i] == '&' ==> LeadingEntity(r[i..]) < |HtmlOrder|
  }

  /** The output of `sanitizeForHTML` holds no raw `<`, `>`, `"`, `'` or `/`,
      and each ampersand in it begins an entity. */
  lemma SanitizeForHtmlSafe(s: string)
    ensures RawHtmlFree(SanitizeForHtml(s))
    ensures AmpersandsOpenEntities(SanitizeForHtml(s))
  {
    EscapeEachSafe(s);
  }

  /** Only the entity's first character is an ampersand. */
  lemma EntityShape(c: char)
    ensures forall i :: 0 <= i < |HtmlEntity(c)| ==> HtmlEntity(c)[i] == '&' || HtmlEntity(c)[i] !in HtmlOrder
    ensures forall i :: 1 <= i < |HtmlEntity(c)| ==> HtmlEntity(c)[i] != '&'
    ensures c !in HtmlOrder ==> HtmlEntity(c) == [c]
  {
    if c in HtmlOrder {
      EntitySpelled(c);
    }
  }

  lemma {:induction false} EscapeEachSafe(s: string)
    ensures RawHtmlFree(EscapeEach(s))
    ensures AmpersandsOpenEntities(EscapeEach(s))
    decreases |s|
  {
    if |s| > 0 {
      var e, rest := HtmlEntity(s[0]), EscapeEach(s[1..]);
      var r := e + rest;
      EscapeEachSafe(s[1..]);
      EntityShape(s[0]);
      LeadingEntityOf(s[0], rest);
      forall i | 0 <= i < |r|
        ensures r[i] == '&' || r[i] !in HtmlOrder
        ensures r[i] == '&' ==> LeadingEntity(r[i..]) < |HtmlOrder|
      {
        if i >= |e| {
          assert r[i] == rest[i - |e|];
          assert r[i..] == rest[i - |e|..];
        } else if i == 0 {
          assert r[0..] == r;
        }
      }
    }
  }

  /** Text with none of the six characters passes through unchanged. */
  lemma SanitizeForHtmlPlain(s: string)
    requires forall i :: 0 <= i < |s| ==> s[i] !in HtmlOrder
    ensures SanitizeForHtml(s) == s
  {
    EscapeEachPlain(s);
  }

  lemma {:induction false} EscapeEachPlain(s: string)
    requires forall i :: 0 <= i < |s| ==> s[i] !in HtmlOrder
    ensures EscapeEach(s) == s
    decreases |s|
  {
    if |s| > 0 {
      EntityShape(s[0]);
      EscapeEachPlain(s[1..]);
      assert s == [s[0]] + s[1..];
    }
  }

  /** The characters `sanitizeForSQL` deletes: quotes, semicolon, backslash. */
  const SqlChars: set<char> := {'\'', '"', ';', '\\'}

  /** `sanitizeForSQL`: delete every quote, double quote, semicolon and
      backslash, keeping the other characters in order. */
  function SanitizeForSql(input: string): (r: string)
    ensures forall i :: 0 <= i < |r| ==> r[i] !in SqlChars
    ensures |r| == |input| - Text.CountIn(input, SqlChars)
    ensures Text.IsSubsequence(r, input)
  {
    Text.Remove(input, SqlChars)
  }

  /** Sanitising twice is sanitising once. */
  lemma SanitizeForSqlIdempotent(s: string)
    ensures SanitizeForSql(SanitizeForSql(s)) == SanitizeForSql(s)
  {
  }

  /** The characters `sanitizeForRegex` escapes, the syntax characters of a
      regular expression. */
  const RegexSpecials: set<char> :=
    {'.', '*', '+', '?', '^', '$', '{', '}', '(', ')', '|', '[', ']', '\\'}

  /** `sanitizeForRegex`: a backslash before every syntax character. */
  function SanitizeForRegex(input: string): (r: string)
    ensures |r| == |input| + Text.CountIn(input, RegexSpecials)
    decreases |input|
  {
    if |input| == 0 then ""
    else if input[0] in RegexSpecials then ['\\', input[0]] + SanitizeForRegex(input[1..])
    else [input[0]] + SanitizeForRegex(input[1..])
  }

  /** The text a pattern matches when it is a plain literal: ordinary
      characters stand for themselves and a backslash makes the next syntax
      character literal. `None` when the pattern holds an operator, a bare
      backslash or an escape of an ordinary character. */
  function LiteralText(p: string): Option<string>
    decreases |p|
  {
    if |p| == 0 then Some("")
    else if p[0] == '\\' then
      if |p| >= 2 && p[1] in RegexSpecials then
        match LiteralText(p[2..])
        case Some(t) => Some([p[1]] + t)
        case None => None
      else None
    else if p[0] in RegexSpecials then None
    else
      match LiteralText(p[1..])
      case Some(t) => Some([p[0]] + t)
      case None => None
  }

  /** The escaped string is a literal pattern that matches exactly the input. */
  lemma {:induction false} SanitizeForRegexLiteral(s: string)
    ensures LiteralText(SanitizeForRegex(s)) == Some(s)
    decreases |s|
  {
    if |s| > 0 {
      var p := SanitizeForRegex(s);
      SanitizeForRegexLiteral(s[1..]);
      if s[0] in RegexSpecials {
        assert p[2..] == SanitizeForRegex(s[1..]);
      } else {
        assert p[1..] == SanitizeForRegex(s[1..]);
      }
      assert s == [s[0]] + s[1..];
    }
  }
}

=== FILE: feedback.dfy ===
/** The feedback synthesizer (`generateSessionFeedback` in
    src/lib/ai-service.ts): three threshold rules each add one line to the
    strengths or to the improvements, and an overall rating. */
module Feedback {
  import opened Conversation
  import opened Assessment
  import Text

  datatype Rating = Strong | Good | Developing

  function RatingName(r: Rating): string {
    match r
    case Strong => "Strong"
    case Good => "Good"
    case Developing => "Developing"
  }

  /** The report before it is rendered as text. */
  datatype Report = Report(strengths: seq<string>, improvements: seq<string>, overall: Rating)

  const StructureStrength: string := "Strong structured thinking and framework usage"
  const StructureImprovement: string := "Work on developing more structured frameworks"
  const EngagementStrength: string := "Good engagement and detailed responses"
  const EngagementImprovement: string := "Try to provide more detailed analysis"
  const ExplorationStrength: string := "Thorough exploration of the case"
  const ExplorationImprovement: string := "Consider asking more clarifying questions"

  /** The overall rating: strong when structure is above 70 and engagement
      above 60; otherwise good when either is above 50; otherwise developing. */
  function OverallRating(p: Progress): (r: Rating)
    ensures r == Strong <==> p.structure > 70 && p.engagement > 60.0
    ensures r == Good <==> !(p.structure > 70 && p.engagement > 60.0) && (p.structure > 50 || p.engagement > 50.0)
    ensures r == Developing <==> p.structure <= 50 && p.engagement <= 50.0
  {
    if p.structure > 70 && p.engagement > 60.0 then Strong
    else if p.structure > 50 || p.engagement > 50.0 then Good
    else Developing
  }

  /** The three rules: each puts its line in exactly one of the two lists, so
      the lists hold three lines between them. */
  function BuildReport(p: Progress, userCount: nat): (r: Report)
    ensures |r.strengths| + |r.improvements| == 3
    ensures StructureStrength in r.strengths <==> p.structure > 70
    ensures StructureImprovement in r.improvements <==> p.structure <= 70
    ensures EngagementStrength in r.strengths <==> p.engagement > 60.0
    ensures EngagementImprovement in r.improvements <==> p.engagement <= 60.0
    ensures ExplorationStrength in r.strengths <==> userCount >= 8
    ensures ExplorationImprovement in r.improvements <==> userCount < 8
    ensures r.overall == OverallRating(p)
  {
    var s1: seq<string> := if p.structure > 70 then [StructureStrength] else [];
    var i1: seq<string> := if p.structure > 70 then [] else [StructureImprovement];
    var s2: seq<string> := if p.engagement > 60.0 then [EngagementStrength] else [];
    var i2: seq<string> := if p.engagement > 60.0 then [] else [EngagementImprovement];
    var s3: seq<string> := if userCount >= 8 then [ExplorationStrength] else [];
    var i3: seq<string> := if userCount >= 8 then [] else [ExplorationImprovement];
    Report(s1 + s2 + s3, i1 + i2 + i3, OverallRating(p))
  }

  /** Bulleted lines: `items.map(s => `• ${s}`).join('\n')`. */
  function Bullets(items: seq<string>): string {
    Text.Join("\n", seq(|items|, i requires 0 <= i < |items| => "\U{2022} " + items[i]))
  }

  const FeedbackHeading: string := "**Session Feedback**"
  const NextSteps: string := "\n\n**Next Steps:** Continue practicing with similar cases and focus on developing structured problem-solving approaches."

  /** The line that states the overall rating. */
  function RatingLine(r: Rating): string {
    "**Overall Performance:** " + RatingName(r)
  }

  /** The sections between the heading and the rating line. */
  function ListsSection(r: Report): string {
    "\n\n**Strengths:**\n" + Bullets(r.strengths)
    + "\n\n**Areas for Improvement:**\n" + Bullets(r.improvements) + "\n\n"
  }

  /** The report text between the template's surrounding line breaks. */
  function ReportBody(r: Report): string {
    FeedbackHeading + ListsSection(r) + RatingLine(r.overall) + NextSteps
  }

  /** The template literal, before `.trim()`: it opens with a line break and
      closes with a line break and four spaces of indentation. */
  function RawText(r: Report): string {
    "\n" + ReportBody(r) + "\n    "
  }

  /** Trimming the template removes exactly the surrounding white space:
      the text starts with the heading, states the rating and ends with the
      next-steps paragraph. */
  lemma TrimmedText(r: Report)
    ensures Text.Trim(RawText(r)) == ReportBody(r)
    ensures FeedbackHeading <= ReportBody(r)
    ensures Text.Includes(ReportBody(r), RatingLine(r.overall))
    ensures Text.EndsWith(ReportBody(r), NextSteps)
  {
    var h, n := FeedbackHeading, NextSteps;
    assert h[0] == '*';
    assert n[|n| - 1] == '.';
    PaddedBody("\n", h, ListsSection(r), RatingLine(r.overall), n, "\n    ");
  }

  /** A body framed by white-space padding: trimming leaves the body, which
      starts with its heading, contains its rating line and ends with its
      closing paragraph. */
  lemma PaddedBody(pre: string, h: string, m: string, l: string, n: string, post: string)
    requires Text.AllSpace(pre) && Text.AllSpace(post)
    requires |h| > 0 && |n| > 0 && !Text.IsSpace(h[0]) && !Text.IsSpace(n[|n| - 1])
    ensures Text.Trim(pre + (h + m + l + n) + post) == h + m + l + n
    ensures h <= h + m + l + n
    ensures Text.Includes(h + m + l + n, l)
    ensures Text.EndsWith(h + m + l + n, n)
  {
    var body := h + m + l + n;
    BodyShape(h, m, l, n);
    TrimAround(pre, body, post);
    Text.IncludesIff(body, l);
  }

  lemma BodyShape(h: string, m: string, l: string, n: string)
    requires |h| > 0 && |n| > 0
    ensures var body := h + m + l + n;
      && body[0] == h[0] && body[|body| - 1] == n[|n| - 1]
      && h <= body && Text.EndsWith(body, n) && Text.OccursAt(body, l, |h| + |m|)
  {
    var body := h + m + l + n;
    assert body[..|h|] == h;
    assert body[|body| - |n|..] == n;
    assert body[|h| + |m|..|h| + |m| + |l|] == l;
  }

  /** Trimming removes white-space padding around a body that neither starts
      nor ends with white space. */
  lemma TrimAround(pre: string, body: string, post: string)
    requires Text.AllSpace(pre) && Text.AllSpace(post)
    requires |body| > 0 && !Text.IsSpace(body[0]) && !Text.IsSpace(body[|body| - 1])
    ensures Text.Trim(pre + body + post) == body
  {
    TrimStartPadding(pre, body + post);
    assert pre + body + post == pre + (body + post);
    TrimEndPadding(body, post);
  }

  lemma {:induction false} TrimStartPadding(pre: string, s: string)
    requires Text.AllSpace(pre) && |s| > 0 && !Text.IsSpace(s[0])
    ensures Text.TrimStart(pre + s) == s
    decreases |pre|
  {
    if |pre| > 0 {
      assert (pre + s)[1..] == pre[1..] + s;
      TrimStartPadding(pre[1..], s);
    } else {
      assert pre + s == s;
    }
  }

  lemma {:induction false} TrimEndPadding(s: string, post: string)
    requires Text.AllSpace(post) && |s| > 0 && !Text.IsSpace(s[|s| - 1])
    ensures Text.TrimEnd(s + post) == s
    decreases |post|
  {
    if |post| > 0 {
      assert (s + post)[..|s + post| - 1] == s + post[..|post| - 1];
      TrimEndPadding(s, post[..|post| - 1]);
    } else {
      assert s + post == s;
    }
  }

  /** `generateSessionFeedback`: the rendered report for the user messages of
      `messages`; the session and the case template are not consulted. */
  function GenerateSessionFeedback(messages: seq<Message>, template: CaseTemplate): (text: string)
    ensures text == ReportBody(BuildReport(AssessUserProgress(messages), |UserMessages(messages)|))
    ensures FeedbackHeading <= text
    ensures Text.Includes(text, RatingLine(OverallRating(AssessUserProgress(messages))))
    ensures Text.EndsWith(text, NextSteps)
  {
    var userMessages := UserMessages(messages);
    var progress := AssessUserProgress(messages);
    var report := BuildReport(progress, |userMessages|);
    TrimmedText(report);
    Text.IncludesIff(ReportBody(report), RatingLine(report.overall));
    Text.Trim(RawText(report))
  }

  /** System messages do not change the feedback. */
  lemma FeedbackIgnoresSystem(messages: seq<Message>, template: CaseTemplate)
    ensures GenerateSessionFeedback(WithoutSystem(messages), template) == GenerateSessionFeedback(messages, template)
  {
    WithoutSystemKeepsUsers(messages);
  }

  /** The rating thresholds at three sample points. */
  lemma RatingExamples()
    ensures OverallRating(Progress(65.0, 75, 0, 0.0)) == Strong
    ensures OverallRating(Progress(40.0, 55, 0, 0.0)) == Good
    ensures OverallRating(Progress(20.0, 30, 0, 0.0)) == Developing
  {
  }
}

=== FILE: formats.dfy ===
/** The format checks of src/lib/security.ts: `isValidSessionId` and
    `validateHoneypot`. */
module Formats {
  import Text

  /** Length of a session identifier: 32 random bytes written in hex. */
  const SessionIdLength := 64

  /** A lower-case hexadecimal digit, the class `[a-f0-9]`. */
  predicate IsLowerHex(c: char) {
    ('0' <= c <= '9') || ('a' <= c <= 'f')
  }

  /** `isValidSessionId`: the whole string matches `^[a-f0-9]{64}$`. */
  method IsValidSessionId(sessionId: string) returns (ok: bool)
    ensures ok <==> |sessionId| == SessionIdLength && forall i :: 0 <= i < |sessionId| ==> IsLowerHex(sessionId[i])
  {
    if |sessionId| != SessionIdLength {
      return false;
    }
    var i := 0;
    while i < |sessionId|
      invariant 0 <= i <= |sessionId|
      invariant forall j :: 0 <= j < i ==> IsLowerHex(sessionId[j])
    {
      if !IsLowerHex(sessionId[i]) {
        return false;
      }
      i := i + 1;
    }
    return true;
  }

  /** A byte, as `crypto.randomBytes` yields them. */
  newtype Byte = x: int | 0 <= x < 256

  /** The lower-case hex digit for `d < 16`. */
  function HexDigit(d: int): (c: char)
    requires 0 <= d < 16
    ensures IsLowerHex(c)
  {
    if d < 10 then ('0' as int + d) as char else ('a' as int + d - 10) as char
  }

  /** `buffer.toString('hex')`: two lower-case digits per byte, high nibble first. */
  function Hex(bytes: seq<Byte>): (s: string)
    ensures |s| == 2 * |bytes|
    ensures forall i :: 0 <= i < |s| ==> IsLowerHex(s[i])
  {
    if |bytes| == 0 then ""
    else [HexDigit(bytes[0] as int / 16), HexDigit(bytes[0] as int % 16)] + Hex(bytes[1..])
  }

  /** `generateSessionId`: hex of 32 random bytes, supplied by the caller
      since randomness is outside the model. */
  function GenerateSessionId(random: seq<Byte>): (s: string)
    requires |random| == 32
    ensures |s| == SessionIdLength && forall i :: 0 <= i < |s| ==> IsLowerHex(s[i])
  {
    Hex(random)
  }

  /** `validateHoneypot`: the hidden form field passes when it is empty or
      holds only white space, as a person leaves it; a bot fills it in. */
  function ValidateHoneypot(honeypotValue: string): (ok: bool)
    ensures ok <==> Text.AllSpace(honeypotValue)
  {
    honeypotValue == "" || Text.Trim(honeypotValue) == ""
  }
}

=== FILE: numbers.dfy ===
/** Number helpers with JavaScript semantics: `Math.round`, `Math.min` on
    reals, decimal rendering of a non-negative integer (template-literal
    interpolation) and `parseInt(s, 10)`. */
module Numbers {
  import opened Wrappers
  import Text

  function Min(a: real, b: real): real {
    if a <= b then a else b
  }

  function MinInt(a: int, b: int): int {
    if a <= b then a else b
  }

  /** `Math.round`: the nearest integer, halves rounded towards +infinity. */
  function Round(x: real): (r: int)
    ensures x - 0.5 < r as real <= x + 0.5
  {
    (x + 0.5).Floor
  }

  /** Rounding never reverses the order of its arguments. */
  lemma RoundMonotone(x: real, y: real)
    requires x <= y
    ensures Round(x) <= Round(y)
  {
  }

  predicate IsDigit(c: char) {
    '0' <= c <= '9'
  }

  predicate AllDigits(s: string) {
    forall i :: 0 <= i < |s| ==> IsDigit(s[i])
  }

  function DigitChar(d: nat): (c: char)
    requires d < 10
    ensures IsDigit(c)
  {
    ('0' as int + d) as char
  }

  function DigitValue(c: char): (d: nat)
    requires IsDigit(c)
    ensures d < 10 && DigitChar(d) == c
  {
    c as int - '0' as int
  }

  /** Decimal rendering of `n`, without leading zeros (as `${n}` prints an
      integral number below 1e21). */
  function NatToString(n: nat): (r: string)
    ensures |r| >= 1 && AllDigits(r)
    ensures |r| > 1 ==> r[0] != '0'
    decreases n
  {
    if n < 10 then [DigitChar(n)]
    else NatToString(n / 10) + [DigitChar(n % 10)]
  }

  /** The value of a string of decimal digits, most significant first. */
  function DigitsValue(ds: string): nat
    requires AllDigits(ds)
    decreases |ds|
  {
    if |ds| == 0 then 0
    else DigitsValue(ds[..|ds| - 1]) * 10 + DigitValue(ds[|ds| - 1])
  }

  /** The longest prefix of `s` made of decimal digits. */
  function LeadingDigits(s: string): (r: string)
    ensures |r| <= |s| && r == s[..|r|] && AllDigits(r)
    ensures |r| == |s| || !IsDigit(s[|r|])
    decreases |s|
  {
    if |s| > 0 && IsDigit(s[0]) then [s[0]] + LeadingDigits(s[1..]) else []
  }

  /** `parseInt(s, 10)`: leading white space skipped, an optional sign, then
      the longest run of decimal digits; `None` stands for `NaN` (no digit). */
  function ParseInt(s: string): (r: Option<int>)
    ensures r.None? <==> LeadingDigits(SignStripped(Text.TrimStart(s))) == []
  {
    var t := Text.TrimStart(s);
    var ds := LeadingDigits(SignStripped(t));
    if |ds| == 0 then None
    else if |t| > 0 && t[0] == '-' then Some(-(DigitsValue(ds) as int))
    else Some(DigitsValue(ds))
  }

  function SignStripped(t: string): string {
    if |t| > 0 && (t[0] == '-' || t[0] == '+') then t[1..] else t
  }

  /** Reading back a rendered number gives the number. */
  lemma {:induction false} DigitsValueOfNatToString(n: nat)
    ensures DigitsValue(NatToString(n)) == n
    decreases n
  {
    if n >= 10 {
      var p := NatToString(n / 10);
      var r := p + [DigitChar(n % 10)];
      assert r[..|r| - 1] == p;
      DigitsValueOfNatToString(n / 10);
    }
  }

  /** `parseInt` inverts decimal rendering, for both signs. */
  lemma ParseIntRoundTrip(n: nat)
    ensures ParseInt(NatToString(n)) == Some(n)
    ensures ParseInt("-" + NatToString(n)) == Some(-(n as int))
  {
    ParseIntIgnoresTail(n, []);
    assert NatToString(n) + [] == NatToString(n);
    ParseIntNegative(n);
  }

  lemma ParseIntNegative(n: nat)
    ensures ParseInt("-" + NatToString(n)) == Some(-(n as int))
  {
    var s := NatToString(n);
    var m := "-" + s;
    Text.TrimStartUntouched(m);
    assert SignStripped(m) == s;
    LeadingDigitsOfDigits(s);
    DigitsValueOfNatToString(n);
  }

  lemma {:induction false} LeadingDigitsOfDigits(s: string)
    requires AllDigits(s)
    ensures LeadingDigits(s) == s
    decreases |s|
  {
    if |s| > 0 {
      LeadingDigitsOfDigits(s[1..]);
    }
  }

  /** The digit run ends at the first character that is not a digit. */
  lemma {:induction false} LeadingDigitsStop(s: string, rest: string)
    requires AllDigits(s)
    requires rest == [] || !IsDigit(rest[0])
    ensures LeadingDigits(s + rest) == s
    decreases |s|
  {
    if |s| > 0 {
      assert (s + rest)[1..] == s[1..] + rest;
      LeadingDigitsStop(s[1..], rest);
    } else {
      assert s + rest == rest;
    }
  }

  /** `parseInt` reads a rendered number and ignores whatever follows it
      from the first non-digit on. */
  lemma ParseIntIgnoresTail(n: nat, rest: string)
    requires rest == [] || !IsDigit(rest[0])
    ensures ParseInt(NatToString(n) + rest) == Some(n)
  {
    var s := NatToString(n);
    var m := s + rest;
    assert m[0] == s[0];
    DigitNotSpace(s[0]);
    Text.TrimStartUntouched(m);
    assert SignStripped(m) == m;
    LeadingDigitsStop(s, rest);
    DigitsValueOfNatToString(n);
  }

  /** The parts `parseInt` sees in a string it reads as a number: white
      space, an optional sign, leading zeros, the digits of the value
      without leading zeros, and a tail that does not start with a digit. */
  predicate WellSpelled(w: string, sign: string, zeros: string, rest: string) {
    && Text.AllSpace(w)
    && IsSign(sign)
    && (forall i :: 0 <= i < |zeros| ==> zeros[i] == '0')
    && (rest == [] || !IsDigit(rest[0]))
  }

  function Spelled(w: string, sign: string, zeros: string, n: nat, rest: string): string {
    w + sign + zeros + NatToString(n) + rest
  }

  /** No sign, `+` or `-`. */
  predicate IsSign(sign: string) {
    |sign| == 0 || (|sign| == 1 && (sign[0] == '+' || sign[0] == '-'))
  }

  /** The value a sign gives to `n`: negated after `-` only. */
  function Signed(sign: string, n: nat): int {
    if |sign| > 0 && sign[0] == '-' then -(n as int) else n
  }

  /** `parseInt` reads every spelling of a number: white space, a `+` sign
      and leading zeros are skipped, a `-` sign negates, and the digits end
      at the first non-digit. */
  lemma ParseIntReads(w: string, sign: string, zeros: string, n: nat, rest: string)
    requires WellSpelled(w, sign, zeros, rest)
    ensures ParseInt(Spelled(w, sign, zeros, n, rest)) == Some(Signed(sign, n))
  {
    var d := NatToString(n);
    DigitsValueSkipsZeros(zeros, d);
    DigitsValueOfNatToString(n);
    var digits := zeros + d;
    LeadingDigitsStop(digits, rest);
    var m := sign + (digits + rest);
    SignedBody(sign, digits + rest);
    Text.TrimStartSkips(w, m);
    SpelledParts(w, sign, zeros, n, rest);
    ParseIntFrom(w + m, m, digits, sign, n);
  }

  lemma SpelledParts(w: string, sign: string, zeros: string, n: nat, rest: string)
    ensures Spelled(w, sign, zeros, n, rest) == w + (sign + ((zeros + NatToString(n)) + rest))
  {
  }

  /** A sign in front of text starting with a digit: the sign is what
      `SignStripped` removes and the text starts with no white space. */
  lemma SignedBody(sign: string, body: string)
    requires IsSign(sign)
    requires |body| > 0 && IsDigit(body[0])
    ensures SignStripped(sign + body) == body
    ensures |sign + body| > 0 && !Text.IsSpace((sign + body)[0])
    ensures (sign + body)[0] == '-' <==> |sign| > 0 && sign[0] == '-'
  {
    if |sign| == 0 {
      assert sign + body == body;
    }
  }

  /** `parseInt` once the trimmed text and its digit run are known. */
  lemma ParseIntFrom(s: string, t: string, ds: string, sign: string, n: nat)
    requires Text.TrimStart(s) == t && LeadingDigits(SignStripped(t)) == ds && |ds| > 0
    requires DigitsValue(ds) == n && (t[0] == '-' <==> |sign| > 0 && sign[0] == '-')
    ensures ParseInt(s) == Some(Signed(sign, n))
  {
  }

  /** Conversely, every string `parseInt` reads as a number is such a
      spelling of the number read. */
  lemma ParseIntSplit(s: string) returns (w: string, sign: string, zeros: string, n: nat, rest: string)
    requires ParseInt(s).Some?
    ensures WellSpelled(w, sign, zeros, rest)
    ensures s == Spelled(w, sign, zeros, n, rest)
    ensures ParseInt(s) == Some(Signed(sign, n))
  {
    var t := Text.TrimStart(s);
    w := s[..|s| - |t|];
    assert s == w + t;
    assert Text.AllSpace(w);
    var body;
    sign, body := SignSplit(t);
    var d;
    zeros, d, rest := DigitsSplit(body);
    n := DigitsValue(d);
    NatToStringOfDigits(d);
    SpelledParts(w, sign, zeros, n, rest);
    assert WellSpelled(w, sign, zeros, rest);
    ParseIntReads(w, sign, zeros, n, rest);
  }

  /** The optional sign at the front of the trimmed text. */
  lemma SignSplit(t: string) returns (sign: string, body: string)
    ensures IsSign(sign)
    ensures t == sign + body && body == SignStripped(t)
  {
    body := SignStripped(t);
    if |t| > 0 && (t[0] == '-' || t[0] == '+') {
      sign := [t[0]];
    } else {
      sign := [];
    }
  }

  /** Text with a leading digit run: leading zeros, the value's digits with
      no leading zero, and what follows the run. */
  lemma DigitsSplit(body: string) returns (zeros: string, d: string, rest: string)
    requires |LeadingDigits(body)| > 0
    ensures forall i :: 0 <= i < |zeros| ==> zeros[i] == '0'
    ensures AllDigits(d) && |d| > 0 && (|d| == 1 || d[0] != '0')
    ensures rest == [] || !IsDigit(rest[0])
    ensures body == zeros + d + rest
  {
    var ds := LeadingDigits(body);
    rest := body[|ds|..];
    var k := ZeroRun(ds);
    zeros := ds[..k];
    d := ds[k..];
    assert ds == zeros + d;
  }

  /** The number of leading zeros of a digit string, keeping its last digit. */
  function ZeroRun(ds: string): (k: nat)
    requires |ds| > 0
    ensures k < |ds| && forall i :: 0 <= i < k ==> ds[i] == '0'
    ensures k == |ds| - 1 || ds[k] != '0'
    decreases |ds|
  {
    if |ds| > 1 && ds[0] == '0' then 1 + ZeroRun(ds[1..]) else 0
  }

  /** A `'0'` in front does not change the value of a digit string. */
  lemma {:induction false} LeadingZero(d: string)
    requires AllDigits(d)
    ensures AllDigits(['0'] + d) && DigitsValue(['0'] + d) == DigitsValue(d)
    decreases |d|
  {
    var z := ['0'] + d;
    if |d| > 0 {
      assert z[..|z| - 1] == ['0'] + d[..|d| - 1];
      LeadingZero(d[..|d| - 1]);
    } else {
      assert z[..0] == [];
    }
  }

  lemma {:induction false} DigitsValueSkipsZeros(zeros: string, d: string)
    requires forall i :: 0 <= i < |zeros| ==> zeros[i] == '0'
    requires AllDigits(d)
    ensures AllDigits(zeros + d) && DigitsValue(zeros + d) == DigitsValue(d)
    decreases |zeros|
  {
    if |zeros| == 0 {
      assert zeros + d == d;
    } else {
      DigitsValueSkipsZeros(zeros[1..], d);
      assert zeros + d == ['0'] + (zeros[1..] + d);
      LeadingZero(zeros[1..] + d);
    }
  }

  /** A digit string not starting with `'0'` has a positive value. */
  lemma {:induction false} PositiveDigits(p: string)
    requires AllDigits(p) && |p| > 0 && p[0] != '0'
    ensures DigitsValue(p) >= 1
    decreases |p|
  {
    if |p| > 1 {
      PositiveDigits(p[..|p| - 1]);
    } else {
      assert p[..0] == [];
    }
  }

  /** Rendering the value of a digit string without leading zeros gives the
      digit string back. */
  lemma {:induction false} NatToStringOfDigits(d: string)
    requires AllDigits(d) && |d| > 0 && (|d| == 1 || d[0] != '0')
    ensures NatToString(DigitsValue(d)) == d
    decreases |d|
  {
    var p := d[..|d| - 1];
    var v := DigitValue(d[|d| - 1]);
    if |d| == 1 {
      assert p == [];
      assert d == [DigitChar(v)];
    } else {
      NatToStringOfDigits(p);
      PositiveDigits(p);
      var n := DigitsValue(d);
      assert n == DigitsValue(p) * 10 + v;
      assert n / 10 == DigitsValue(p) && n % 10 == v;
      assert d == p + [DigitChar(v)];
    }
  }

  lemma DigitNotSpace(c: char)
    requires IsDigit(c)
    ensures !Text.IsSpace(c)
  {
  }
}

=== FILE: password.dfy ===
/** Password strength rating (`validatePasswordStrength` in
    src/lib/security.ts): seven checks, each adding a point or, except the
    twelve-character check, a feedback line. */
module Password {

  /** `password.length`: JavaScript counts UTF-16 code units, so a character
      outside the Basic Multilingual Plane counts twice. */
  function Utf16Length(s: string): (n: nat)
    ensures n >= |s|
    decreases |s|
  {
    if |s| == 0 then 0 else (if s[0] as int >= 0x1_0000 then 2 else 1) + Utf16Length(s[1..])
  }

  predicate IsLowerAscii(c: char) { 'a' <= c <= 'z' }
  predicate IsUpperAscii(c: char) { 'A' <= c <= 'Z' }
  predicate IsDigitAscii(c: char) { '0' <= c <= '9' }

  /** `/[a-z]/`, `/[A-Z]/`, `/\d/` and `/[^a-zA-Z0-9]/`. */
  predicate HasLower(s: string) { exists i :: 0 <= i < |s| && IsLowerAscii(s[i]) }
  predicate HasUpper(s: string) { exists i :: 0 <= i < |s| && IsUpperAscii(s[i]) }
  predicate HasDigit(s: string) { exists i :: 0 <= i < |s| && IsDigitAscii(s[i]) }
  predicate HasSpecial(s: string) {
    exists i :: 0 <= i < |s| && !IsLowerAscii(s[i]) && !IsUpperAscii(s[i]) && !IsDigitAscii(s[i])
  }

  /** The characters `.` matches: not a line terminator. A character outside
      the Basic Multilingual Plane is two different code units to the regular
      expression, so three of them in a row never form a run. */
  predicate Repeatable(c: char) {
    c != '\n' && c != '\r' && c != '\U{2028}' && c != '\U{2029}' && c as int < 0x1_0000
  }

  /** `/(.)\1{2,}/`: some character occurs three times in a row. */
  predicate HasTripleRun(s: string) {
    exists i :: 0 <= i && i + 2 < |s| && Repeatable(s[i]) && s[i] == s[i + 1] && s[i + 1] == s[i + 2]
  }

  const TooShort: string := "Password should be at least 8 characters long"
  const NeedLower: string := "Include lowercase letters"
  const NeedUpper: string := "Include uppercase letters"
  const NeedNumber: string := "Include numbers"
  const NeedSpecial: string := "Include special characters"
  const AvoidRepeats: string := "Avoid repeating characters"

  datatype Strength = Strength(isValid: bool, score: int, feedback: seq<string>)

  /** The lines of the failed checks, in order. */
  function Failed(passed: seq<bool>, lines: seq<string>): (r: seq<string>)
    requires |passed| == |lines|
    ensures |r| + Passed(passed) == |passed|
    decreases |passed|
  {
    if |passed| == 0 then []
    else (if passed[0] then [] else [lines[0]]) + Failed(passed[1..], lines[1..])
  }

  /** The number of passed checks. */
  function Passed(passed: seq<bool>): (n: nat)
    ensures n <= |passed|
    decreases |passed|
  {
    if |passed| == 0 then 0 else (if passed[0] then 1 else 0) + Passed(passed[1..])
  }

  /** With distinct lines, a line is reported exactly when its check failed. */
  lemma {:induction false} FailedMembers(passed: seq<bool>, lines: seq<string>, j: nat)
    requires |passed| == |lines| && j < |lines|
    requires forall a, b :: 0 <= a < b < |lines| ==> lines[a] != lines[b]
    ensures lines[j] in Failed(passed, lines) <==> !passed[j]
    decreases |passed|
  {
    if j == 0 {
      if |lines| > 1 {
        FailedAvoids(passed[1..], lines[1..], lines[0]);
      } else {
        assert Failed(passed[1..], lines[1..]) == [];
      }
    } else {
      FailedMembers(passed[1..], lines[1..], j - 1);
    }
  }

  lemma {:induction false} FailedAvoids(passed: seq<bool>, lines: seq<string>, x: string)
    requires |passed| == |lines| && x !in lines
    ensures x !in Failed(passed, lines)
    decreases |passed|
  {
    if |passed| > 0 {
      FailedAvoids(passed[1..], lines[1..], x);
    }
  }

  /** Only the given lines are reported, each at most once when they are
      distinct. */
  lemma {:induction false} FailedShape(passed: seq<bool>, lines: seq<string>)
    requires |passed| == |lines|
    requires forall a, b :: 0 <= a < b < |lines| ==> lines[a] != lines[b]
    ensures forall x :: x in Failed(passed, lines) ==> x in lines
    ensures forall a, b :: 0 <= a < b < |Failed(passed, lines)| ==> Failed(passed, lines)[a] != Failed(passed, lines)[b]
    decreases |passed|
  {
    if |passed| > 0 {
      var rest := Failed(passed[1..], lines[1..]);
      FailedShape(passed[1..], lines[1..]);
      assert lines[0] !in lines[1..] by {
        forall b | 0 <= b < |lines[1..]| ensures lines[1..][b] != lines[0] {
          assert lines[1..][b] == lines[b + 1];
        }
      }
      forall x | x in rest ensures x in lines {
        assert x in lines[1..];
      }
    }
  }

  const FeedbackLines: seq<string> := [TooShort, NeedLower, NeedUpper, NeedNumber, NeedSpecial, AvoidRepeats]

  lemma FeedbackLinesDistinct()
    ensures forall a, b :: 0 <= a < b < |FeedbackLines| ==> FeedbackLines[a] != FeedbackLines[b]
  {
  }

  /** The outcome of the six checks that report a line, in the source's order. */
  function Checks(password: string): (r: seq<bool>)
    ensures |r| == |FeedbackLines|
  {
    [Utf16Length(password) >= 8, HasLower(password), HasUpper(password),
     HasDigit(password), HasSpecial(password), !HasTripleRun(password)]
  }

  /** `validatePasswordStrength`. Every check but the twelve-character one
      yields a point or a line, so points and lines add up to six, plus one
      for a password of twelve or more code units; the password is valid at
      four points. Each feedback line appears exactly when its check fails. */
  function ValidatePasswordStrength(password: string): (r: Strength)
    ensures 0 <= r.score <= 7
    ensures r.isValid <==> r.score >= 4
    ensures r.score + |r.feedback| == 6 + (if Utf16Length(password) >= 12 then 1 else 0)
    ensures forall j :: 0 <= j < |FeedbackLines| ==> (FeedbackLines[j] in r.feedback <==> !Checks(password)[j])
    ensures forall x :: x in r.feedback ==> x in FeedbackLines
    ensures forall a, b :: 0 <= a < b < |r.feedback| ==> r.feedback[a] != r.feedback[b]
  {
    var checks := Checks(password);
    var long := if Utf16Length(password) >= 12 then 1 else 0;
    var score := Passed(checks) + long;
    var feedback := Failed(checks, FeedbackLines);
    FeedbackLinesDistinct();
    FailedShape(checks, FeedbackLines);
    forall j | 0 <= j < |FeedbackLines|
      ensures FeedbackLines[j] in feedback <==> !checks[j]
    {
      FailedMembers(checks, FeedbackLines, j);
    }
    Strength(score >= 4, score, feedback)
  }

  /** The feedback names each failed requirement: the length, each missing
      character class and a run of three repeated characters. */
  lemma FeedbackNamesFailures(password: string)
    ensures TooShort in ValidatePasswordStrength(password).feedback <==> Utf16Length(password) < 8
    ensures NeedLower in ValidatePasswordStrength(password).feedback <==> !HasLower(password)
    ensures NeedUpper in ValidatePasswordStrength(password).feedback <==> !HasUpper(password)
    ensures NeedNumber in ValidatePasswordStrength(password).feedback <==> !HasDigit(password)
    ensures NeedSpecial in ValidatePasswordStrength(password).feedback <==> !HasSpecial(password)
    ensures AvoidRepeats in ValidatePasswordStrength(password).feedback <==> HasTripleRun(password)
  {
    var r := ValidatePasswordStrength(password);
    var c := Checks(password);
    assert FeedbackLines[0] == TooShort && FeedbackLines[1] == NeedLower && FeedbackLines[2] == NeedUpper;
    assert FeedbackLines[3] == NeedNumber && FeedbackLines[4] == NeedSpecial && FeedbackLines[5] == AvoidRepeats;
    assert c[0] == (Utf16Length(password) >= 8) && c[1] == HasLower(password) && c[2] == HasUpper(password);
    assert c[3] == HasDigit(password) && c[4] == HasSpecial(password) && c[5] == !HasTripleRun(password);
  }

  /** Eight code units with a lower-case letter, an upper-case letter and a
      digit already earn the four points that make a password valid. */
  lemma MixedPasswordIsValid(password: string)
    requires Utf16Length(password) >= 8
    requires HasLower(password) && HasUpper(password) && HasDigit(password)
    ensures ValidatePasswordStrength(password).isValid
  {
    var c := Checks(password);
    PassedLeadingChecks(c, 4);
  }

  /** Checks that all pass at the front are all counted. */
  lemma {:induction false} PassedLeadingChecks(passed: seq<bool>, k: nat)
    requires k <= |passed| && forall i :: 0 <= i < k ==> passed[i]
    ensures Passed(passed) >= k
    decreases k
  {
    if k > 0 {
      PassedLeadingChecks(passed[1..], k - 1);
    }
  }
}

=== FILE: rate_limiter.dfy ===
/** The fixed-window rate limiter (`rateLimit` in src/lib/security.ts) as a
    pure transition over the store of windows. The clock reading `Date.now()`
    is the parameter `now`. */
module RateLimiter {
  import Numbers

  /** The requests counted in the current window of one identifier and the
      instant (in milliseconds) after which the window expires. */
  datatype Window = Window(count: int, resetTime: int)

  /** What `rateLimit` returns to its caller. */
  datatype Verdict = Verdict(success: bool, remaining: int, resetTime: int)

  type Store = map<string, Window>

  datatype Step = Step(store: Store, verdict: Verdict)

  /** The window of `identifier` is missing or has expired at `now`. */
  predicate Expired(store: Store, identifier: string, now: int) {
    identifier !in store || now > store[identifier].resetTime
  }

  /** One call of `rateLimit(identifier, windowMs, maxRequests)` at time `now`.
      A missing or expired window restarts at count one; a full window
      rejects and leaves the store alone; otherwise the count grows by one.
      The verdict always reports the reset time of the identifier's stored
      window, on success the requests still left in it, and no other
      identifier's window is touched. */
  function RateLimit(store: Store, identifier: string, windowMs: int, maxRequests: int, now: int): (r: Step)
    ensures identifier in r.store && r.verdict.resetTime == r.store[identifier].resetTime
    ensures r.verdict.success <==> Expired(store, identifier, now) || store[identifier].count < maxRequests
    ensures r.verdict.success ==> r.verdict.remaining == maxRequests - r.store[identifier].count
    ensures !r.verdict.success ==> r.store == store && r.verdict.remaining == 0
    ensures Expired(store, identifier, now) ==> r.store[identifier] == Window(1, now + windowMs)
    ensures !Expired(store, identifier, now) && r.verdict.success ==>
              r.store[identifier] == Window(store[identifier].count + 1, store[identifier].resetTime)
    ensures r.store.Keys == store.Keys + {identifier}
    ensures forall k :: k in store && k != identifier ==> r.store[k] == store[k]
  {
    if identifier !in store || now > store[identifier].resetTime then
      Step(store[identifier := Window(1, now + windowMs)], Verdict(true, maxRequests - 1, now + windowMs))
    else
      var window := store[identifier];
      if window.count >= maxRequests then
        Step(store, Verdict(false, 0, window.resetTime))
      else
        var next := Window(window.count + 1, window.resetTime);
        Step(store[identifier := next], Verdict(true, maxRequests - next.count, window.resetTime))
  }

  /** Every stored window counts between one and `maxRequests` requests. */
  predicate Bounded(store: Store, maxRequests: int) {
    forall k :: k in store ==> 1 <= store[k].count <= maxRequests
  }

  /** With a limit of at least one, no window ever counts more requests than
      the limit: the bound is an invariant of every call. */
  lemma BoundedPreserved(store: Store, identifier: string, windowMs: int, maxRequests: int, now: int)
    requires maxRequests >= 1 && Bounded(store, maxRequests)
    ensures Bounded(RateLimit(store, identifier, windowMs, maxRequests, now).store, maxRequests)
  {
  }

  /** A sequence of calls for one identifier at the instants `times`: the
      final store and whether each call was let through. */
  function Run(store: Store, identifier: string, windowMs: int, maxRequests: int, times: seq<int>): (r: (Store, seq<bool>))
    ensures |r.1| == |times|
    decreases |times|
  {
    if |times| == 0 then (store, [])
    else
      var step := RateLimit(store, identifier, windowMs, maxRequests, times[0]);
      var rest := Run(step.store, identifier, windowMs, maxRequests, times[1..]);
      (rest.0, [step.verdict.success] + rest.1)
  }

  function Successes(outcomes: seq<bool>): nat
    decreases |outcomes|
  {
    if |outcomes| == 0 then 0 else (if outcomes[0] then 1 else 0) + Successes(outcomes[1..])
  }

  /** Within a live window that already counts `count` requests, a run of
      calls lets through exactly as many as the limit still allows (and no
      more than were made); the window's reset time never moves. */
  lemma {:induction false} LiveWindowAdmits(store: Store, identifier: string, windowMs: int, maxRequests: int, times: seq<int>)
    requires identifier in store
    requires forall i :: 0 <= i < |times| ==> times[i] <= store[identifier].resetTime
    ensures var count := store[identifier].count;
            Successes(Run(store, identifier, windowMs, maxRequests, times).1)
              == Numbers.MinInt(|times|, if maxRequests - count < 0 then 0 else maxRequests - count)
    ensures identifier in Run(store, identifier, windowMs, maxRequests, times).0
    ensures Run(store, identifier, windowMs, maxRequests, times).0[identifier].resetTime == store[identifier].resetTime
    decreases |times|
  {
    if |times| > 0 {
      var step := RateLimit(store, identifier, windowMs, maxRequests, times[0]);
      assert forall i :: 0 <= i < |times[1..]| ==> times[1..][i] == times[i + 1];
      LiveWindowAdmits(step.store, identifier, windowMs, maxRequests, times[1..]);
    }
  }

  /** A burst that opens a fresh window at `times[0]` and stays inside it is
      let through for at most `maxRequests` calls: the first call and then
      as many as the limit leaves. */
  lemma FreshWindowAdmitsAtMostMax(store: Store, identifier: string, windowMs: int, maxRequests: int, times: seq<int>)
    requires maxRequests >= 1 && |times| > 0
    requires Expired(store, identifier, times[0])
    requires forall i :: 1 <= i < |times| ==> times[i] <= times[0] + windowMs
    ensures Successes(Run(store, identifier, windowMs, maxRequests, times).1) == Numbers.MinInt(|times|, maxRequests)
  {
    var step := RateLimit(store, identifier, windowMs, maxRequests, times[0]);
    assert forall i :: 0 <= i < |times[1..]| ==> times[1..][i] == times[i + 1];
    LiveWindowAdmits(step.store, identifier, windowMs, maxRequests, times[1..]);
  }
}

=== FILE: responses.dfy ===
/** The response generator and session scorer of the coaching engine
    (`generateContextualResponse`, `getResponseTemplates`, `generateThinking`,
    `generateSuggestions` and `calculateFinalScore` in src/lib/ai-service.ts). */
module Responses {
  import opened Wrappers
  import opened Conversation
  import opened Assessment
  import Numbers
  import Text

  /** What the engine hands back for one user turn. */
  datatype AIResponse = AIResponse(
    content: string,
    thinking: Option<string>,
    suggestions: Option<seq<string>>,
    score: Option<int>,
    feedback: Option<string>)

  /** Every template pool has this many replies; the random pick is an index below it. */
  const PoolSize: nat := 3

  /** The reply templates of each stage. */
  const OpeningReplies: seq<string> := [
    "Great! Let's dive into this case. Can you start by clarifying what you understand about the problem?",
    "Excellent. Before we begin our analysis, what initial questions do you have about the situation?",
    "Perfect. Let's structure our approach. What framework would you use to tackle this problem?"]
  const ClarificationReplies: seq<string> := [
    "That's a good start. Can you be more specific about the key drivers you'd want to investigate?",
    "Interesting perspective. What assumptions are you making here, and how would you validate them?",
    "Good thinking. How would you prioritize these factors in your analysis?"]
  const FrameworkReplies: seq<string> := [
    "I like your structured approach. Can you walk me through each component of your framework?",
    "That's a solid framework. How would you adapt it specifically for this industry context?",
    "Good structure. What data would you need to test each part of your hypothesis?"]
  const AnalysisReplies: seq<string> := [
    "Excellent analysis. What are the implications of these findings for our recommendation?",
    "That's insightful. How would you quantify the impact of this factor?",
    "Good point. What potential risks or challenges do you see with this approach?"]
  const ConclusionReplies: seq<string> := [
    "Great work! Can you summarize your key findings and recommendation?",
    "Excellent analysis throughout. What would be your next steps if you were presenting to the client?",
    "Well done. How confident are you in your recommendation, and what would make you more certain?"]

  function Pool(s: Stage): (r: seq<string>)
    ensures |r| == PoolSize
  {
    match s
    case Opening => OpeningReplies
    case ProblemClarification => ClarificationReplies
    case FrameworkDevelopment => FrameworkReplies
    case Analysis => AnalysisReplies
    case Conclusion => ConclusionReplies
  }

  /** The properties every object literal inherits from `Object.prototype`.
      Looking one of these up in the source's template maps yields the
      inherited value, not a list, so the fallbacks below are stated for the
      other names only. */
  const InheritedNames: set<string> := {
    "constructor", "__proto__", "toString", "toLocaleString", "valueOf",
    "hasOwnProperty", "isPrototypeOf", "propertyIsEnumerable",
    "__defineGetter__", "__defineSetter__", "__lookupGetter__", "__lookupSetter__"}

  /** `getResponseTemplates`: the pool of the named stage; any other name
      (apart from the inherited property names) falls back to the analysis
      pool. The industry is not consulted. */
  function GetResponseTemplates(industry: string, stage: string): (r: seq<string>)
    ensures |r| == PoolSize
    ensures forall s :: stage == StageName(s) ==> r == Pool(s)
    ensures (forall s :: stage != StageName(s)) && stage !in InheritedNames ==> r == Pool(Analysis)
  {
    ParseStageComplete(stage);
    match ParseStage(stage)
    case Some(s) => Pool(s)
    case None => Pool(Analysis)
  }

  /** The coaching suggestions of each stage. */
  function SuggestionList(s: Stage): (r: seq<string>)
    ensures |r| == 3
  {
    match s
    case Opening => ["Start with a structured framework", "Clarify the problem statement", "Ask about key constraints"]
    case ProblemClarification => ["Define success metrics", "Identify key stakeholders", "Understand the timeline"]
    case FrameworkDevelopment => ["Consider market dynamics", "Analyze competitive landscape", "Evaluate internal capabilities"]
    case Analysis => ["Quantify the impact", "Consider implementation challenges", "Think about risks and mitigation"]
    case Conclusion => ["Summarize key insights", "Make a clear recommendation", "Outline next steps"]
  }

  /** `generateSuggestions`: three suggestions for a stage name, none for any
      other string apart from the inherited property names. */
  function GenerateSuggestions(stage: string, industry: string): (r: seq<string>)
    ensures forall s :: stage == StageName(s) ==> r == SuggestionList(s)
    ensures stage !in InheritedNames ==> (r == [] <==> forall s :: stage != StageName(s))
    ensures |r| == 0 || |r| == 3
  {
    ParseStageComplete(stage);
    match ParseStage(stage)
    case Some(s) => SuggestionList(s)
    case None => []
  }

  /** `${n}` for an integral number: a minus sign exactly for negative
      numbers, then decimal digits without leading zeros; `parseInt` reads
      it back. */
  function IntToString(n: int): (r: string)
    ensures |r| > 0 && (r[0] == '-' <==> n < 0)
    ensures var d := if n < 0 then r[1..] else r;
      |d| > 0 && Numbers.AllDigits(d) && (|d| > 1 ==> d[0] != '0')
    ensures Numbers.ParseInt(r) == Some(n)
  {
    Numbers.ParseIntRoundTrip(if n < 0 then -n else n);
    if n < 0 then "-" + Numbers.NatToString(-n) else Numbers.NatToString(n)
  }

  /** The closing advice of the thinking trace. */
  function Directive(stage: string): string {
    if stage == "opening" then "encourage framework development"
    else if stage == "analysis" then "push for deeper insights"
    else "guide toward conclusions"
  }

  const ThinkingLead: string := "The user is showing "

  function StructureWord(p: Progress): string {
    if p.structure > 70 then "strong" else "developing"
  }

  function StructureSentence(stage: string, p: Progress): string {
    ThinkingLead + (StructureWord(p) + (" structured thinking at the " + stage + " stage."))
  }

  function EngagementSentence(p: Progress): string {
    "Their engagement level is " + (if p.engagement > 60.0 then "high" else "moderate")
    + " with an average message length of " + IntToString(Numbers.Round(p.averageMessageLength)) + " words."
  }

  function DirectiveSentence(stage: string): string {
    "I should " + Directive(stage) + "."
  }

  /** `generateThinking`: three sentences joined by spaces. The first names
      the stage and calls the structure strong exactly when the score is
      above 70 (and developing otherwise); the last asks for framework
      development exactly at the opening stage, for deeper insights exactly
      at the analysis stage, and otherwise to guide toward conclusions. The user's message is not consulted. */
  function GenerateThinking(userMessage: string, stage: string, p: Progress): (r: string)
    ensures ThinkingLead + StructureWord(p) + " structured thinking at the " + stage + " stage. " <= r
    ensures ThinkingLead + "strong " <= r <==> p.structure > 70
    ensures ThinkingLead + "developing " <= r <==> p.structure <= 70
    ensures Text.EndsWith(r, DirectiveSentence("opening")) <==> stage == "opening"
    ensures Text.EndsWith(r, DirectiveSentence("analysis")) <==> stage == "analysis"
    ensures Text.EndsWith(r, DirectiveSentence(stage))
    ensures stage != "opening" && stage != "analysis" ==> Text.EndsWith(r, "I should guide toward conclusions.")
  {
    var a := StructureSentence(stage, p);
    var b := EngagementSentence(p);
    var c := DirectiveSentence(stage);
    var r := a + " " + b + " " + c;
    FirstSentenceIsPrefix(a, b, c);
    FirstSentenceNamesStage(stage, p, r);
    ThinkingOpening(stage, p, r);
    ThinkingClosing(a + " " + b + " ", c, stage);
    DirectiveOpening(a + " " + b + " ", stage);
    ThinkingEnds(a + " " + b + " ", stage);
    r
  }

  lemma FirstSentenceIsPrefix(a: string, b: string, c: string)
    ensures a <= a + " " + b + " " + c
    ensures a + " " <= a + " " + b + " " + c
  {
    assert (a + " " + b + " " + c)[..|a|] == a;
    assert (a + " " + b + " " + c)[..|a| + 1] == a + " ";
  }

  lemma FirstSentenceNamesStage(stage: string, p: Progress, r: string)
    requires StructureSentence(stage, p) + " " <= r
    ensures ThinkingLead + StructureWord(p) + " structured thinking at the " + stage + " stage. " <= r
  {
    var w, m := StructureWord(p), " structured thinking at the " + stage + " stage.";
    assert ThinkingLead + w + " structured thinking at the " + stage + " stage. " == ThinkingLead + (w + m) + " ";
  }

  lemma ThinkingOpening(stage: string, p: Progress, r: string)
    requires StructureSentence(stage, p) <= r
    ensures ThinkingLead + "strong " <= r <==> p.structure > 70
    ensures ThinkingLead + "developing " <= r <==> p.structure <= 70
  {
    var mid := " structured thinking at the " + stage + " stage.";
    var w := StructureWord(p);
    var rest := r[|StructureSentence(stage, p)|..];
    assert r == StructureSentence(stage, p) + rest;
    var L := ThinkingLead;
    assert r == L + (w + (mid + rest));
    var after := w + (mid + rest);
    assert r[..|L|] == L;
    assert r[|L|..] == after;
    assert mid[0] == ' ';
    if p.structure > 70 {
      assert after[..7] == "strong ";
      assert after[0] == 's';
    } else {
      assert after[..11] == "developing ";
      assert after[0] == 'd';
    }
    PrefixAfter(L, "strong ", r);
    PrefixAfter(L, "developing ", r);
  }

  lemma PrefixAfter(L: string, t: string, r: string)
    requires L <= r
    ensures L + t <= r <==> t <= r[|L|..]
  {
    if L + t <= r {
      assert r[|L|..][..|t|] == (L + t)[|L|..];
    }
    if t <= r[|L|..] {
      assert r[..|L| + |t|] == L + t;
    }
  }

  lemma ThinkingClosing(front: string, c: string, stage: string)
    requires c == DirectiveSentence(stage)
    ensures Text.EndsWith(front + c, DirectiveSentence("analysis")) <==> stage == "analysis"
  {
    DirectiveClosing(stage);
    EndsWithAfter(front, c, DirectiveSentence("analysis"));
  }

  /** Only the analysis directive ends with the request for deeper insights. */
  lemma DirectiveClosing(stage: string)
    ensures |DirectiveSentence(stage)| >= |DirectiveSentence("analysis")|
    ensures Text.EndsWith(DirectiveSentence(stage), DirectiveSentence("analysis")) <==> stage == "analysis"
  {
    var c, t := DirectiveSentence(stage), DirectiveSentence("analysis");
    var d := Directive("analysis");
    assert |d| == 24 && d[0] == 'p';
    assert t[9] == 'p' && t[0] == 'I';
    if stage == "opening" {
      var o := Directive(stage);
      assert |o| == 31;
      assert c[7] == 'd';
      assert c[|c| - |t|..][0] == c[7];
    } else if stage != "analysis" {
      var g := Directive(stage);
      assert |g| == 24 && g[0] == 'g';
      assert c[9] == 'g';
      assert c[|c| - |t|..] == c;
    }
  }

  /** The note ends with the stage's directive, which for any stage other
      than opening and analysis is the request to guide toward conclusions. */
  lemma ThinkingEnds(front: string, stage: string)
    ensures Text.EndsWith(front + DirectiveSentence(stage), DirectiveSentence(stage))
    ensures stage != "opening" && stage != "analysis" ==>
      Text.EndsWith(front + DirectiveSentence(stage), "I should guide toward conclusions.")
  {
    var c := DirectiveSentence(stage);
    EndsWithAfter(front, c, c);
    OtherDirective(stage);
  }

  lemma OtherDirective(stage: string)
    ensures stage != "opening" && stage != "analysis" ==>
      DirectiveSentence(stage) == "I should guide toward conclusions."
  {
  }

  /** Only the opening directive asks for framework development: the other
      directives are shorter and do not end the same way. */
  lemma DirectiveOpening(front: string, stage: string)
    ensures Text.EndsWith(front + DirectiveSentence(stage), DirectiveSentence("opening")) <==> stage == "opening"
  {
    var c, t := DirectiveSentence(stage), DirectiveSentence("opening");
    var x := front + c;
    assert x[|x| - |c|..] == c;
    if stage != "opening" {
      var g, o := Directive(stage), Directive("opening");
      assert |g| == 24 && |o| == 31 && o[0] == 'e';
      assert t[7] == 'd' && c[0] == 'I';
    }
  }

  lemma EndsWithAfter(front: string, c: string, t: string)
    requires |t| <= |c|
    ensures Text.EndsWith(front + c, t) <==> Text.EndsWith(c, t)
  {
    var r := front + c;
    assert r[|r| - |t|..] == c[|c| - |t|..];
  }

  /** `Math.min(100, (messageCount / 10) * 100)`. */
  function LengthScore(messageCount: nat): (r: real)
    ensures 0.0 <= r <= 100.0
    ensures r == 100.0 <==> messageCount >= 10
    ensures messageCount < 10 ==> r == 10.0 * messageCount as real
  {
    Numbers.Min(100.0, (messageCount as real / 10.0) * 100.0)
  }

  /** `calculateFinalScore`: the rounded weighted sum 0.3 engagement +
      0.4 structure + 0.3 length score, within 0..100 whenever engagement and
      structure are. */
  function FinalScore(p: Progress): (r: int)
    ensures 0.0 <= p.engagement <= 100.0 && 0 <= p.structure <= 100 ==> 0 <= r <= 100
    ensures var x := p.engagement * 0.3 + p.structure as real * 0.4 + LengthScore(p.messageCount) * 0.3;
            x - 0.5 < r as real <= x + 0.5
  {
    Numbers.Round(p.engagement * 0.3 + p.structure as real * 0.4 + LengthScore(p.messageCount) * 0.3)
  }

  /** The final score never drops when any of its inputs grows. */
  lemma FinalScoreMonotone(p: Progress, q: Progress)
    requires p.engagement <= q.engagement && p.structure <= q.structure && p.messageCount <= q.messageCount
    ensures FinalScore(p) <= FinalScore(q)
  {
    assert LengthScore(p.messageCount) <= LengthScore(q.messageCount);
    Numbers.RoundMonotone(
      p.engagement * 0.3 + p.structure as real * 0.4 + LengthScore(p.messageCount) * 0.3,
      q.engagement * 0.3 + q.structure as real * 0.4 + LengthScore(q.messageCount) * 0.3);
  }

  /** Engagement 80, structure 90 and ten messages score 24 + 36 + 30 = 90. */
  lemma FinalScoreExample()
    ensures FinalScore(Progress(80.0, 90, 10, 4.0)) == 90
  {
  }

  /** `generateContextualResponse`: a reply from the stage's pool chosen by
      `pick` (the source draws it at random), the thinking trace and the
      suggestions, and a final score exactly at the conclusion stage. */
  function GenerateContextualResponse(
    template: CaseTemplate, userMessage: string, stage: string, p: Progress, pick: nat): (r: AIResponse)
    requires pick < PoolSize
    ensures r.content in GetResponseTemplates(template.industry, stage)
    ensures r.score.Some? <==> stage == "conclusion"
    ensures r.score.Some? ==> r.score.value == FinalScore(p)
    ensures r.thinking == Some(GenerateThinking(userMessage, stage, p))
    ensures r.suggestions == Some(GenerateSuggestions(stage, template.industry))
    ensures r.feedback.None?
  {
    var responses := GetResponseTemplates(template.industry, stage);
    AIResponse(
      responses[pick],
      Some(GenerateThinking(userMessage, stage, p)),
      Some(GenerateSuggestions(stage, template.industry)),
      if stage == "conclusion" then Some(FinalScore(p)) else None,
      None)
  }
}

=== FILE: text.dfy ===
/** String helpers with the semantics of the JavaScript built-ins the source
    relies on: `trim`, `includes`, `split(' ')`, `join`, `toLowerCase` and
    character-class deletion. Strings are sequences of Unicode scalar values. */
module Text {

  /** The white-space set of ECMAScript's `String.prototype.trim` and of
      `parseInt`: TAB, VT, FF, SPACE, NBSP, ZWNBSP, the other `Zs` characters,
      and the line terminators LF, CR, LS and PS. */
  predicate IsSpace(c: char) {
    || c == '\t' || c == '\n' || c == '\U{000B}' || c == '\U{000C}' || c == '\r'
    || c == ' ' || c == '\U{00A0}' || c == '\U{1680}'
    || ('\U{2000}' <= c <= '\U{200A}')
    || c == '\U{2028}' || c == '\U{2029}' || c == '\U{202F}' || c == '\U{205F}'
    || c == '\U{3000}' || c == '\U{FEFF}'
  }

  predicate AllSpace(s: string) {
    forall i :: 0 <= i < |s| ==> IsSpace(s[i])
  }

  /** Leading white space removed: the result is a suffix of `s`, everything
      dropped is white space, and the result does not start with white space. */
  function TrimStart(s: string): (r: string)
    ensures |r| <= |s| && r == s[|s| - |r|..]
    ensures forall i :: 0 <= i < |s| - |r| ==> IsSpace(s[i])
    ensures r == [] || !IsSpace(r[0])
    decreases |s|
  {
    if |s| > 0 && IsSpace(s[0]) then TrimStart(s[1..]) else s
  }

  /** Trailing white space removed: the result is a prefix of `s`, everything
      dropped is white space, and the result does not end with white space. */
  function TrimEnd(s: string): (r: string)
    ensures |r| <= |s| && r == s[..|r|]
    ensures forall i :: |r| <= i < |s| ==> IsSpace(s[i])
    ensures r == [] || !IsSpace(r[|r| - 1])
    decreases |s|
  {
    if |s| > 0 && IsSpace(s[|s| - 1]) then TrimEnd(s[..|s| - 1]) else s
  }

  /** `s.trim()`: a contiguous slice of `s` with only white space around it
      and no white space at either of its ends, empty exactly when `s` is all
      white space. */
  function Trim(s: string): (r: string)
    ensures exists i :: OccursAt(s, r, i) && AllSpace(s[..i]) && AllSpace(s[i + |r|..])
    ensures r == [] || (!IsSpace(r[0]) && !IsSpace(r[|r| - 1]))
    ensures r == [] <==> AllSpace(s)
  {
    var t := TrimStart(s);
    var r := TrimEnd(t);
    TrimFrame(s, t, r);
    r
  }

  /** Where the trimmed text sits in `s`, and that only white space is
      around it. */
  lemma TrimFrame(s: string, t: string, r: string)
    requires |t| <= |s| && t == s[|s| - |t|..] && forall j :: 0 <= j < |s| - |t| ==> IsSpace(s[j])
    requires |r| <= |t| && r == t[..|r|] && forall j :: |r| <= j < |t| ==> IsSpace(t[j])
    ensures OccursAt(s, r, |s| - |t|)
    ensures AllSpace(s[..|s| - |t|])
    ensures AllSpace(s[|s| - |t| + |r|..])
  {
    var i := |s| - |t|;
    assert s[i..i + |r|] == r;
    forall j | i + |r| <= j < |s| ensures IsSpace(s[j]) {
      assert s[j] == t[j - i];
    }
  }

  /** A string not starting with white space is its own `trimStart`. */
  lemma TrimStartUntouched(s: string)
    requires s == [] || !IsSpace(s[0])
    ensures TrimStart(s) == s
  {
  }

  /** `trimStart` removes a white-space prefix and stops at the first
      character that is not white space. */
  lemma {:induction false} TrimStartSkips(w: string, m: string)
    requires AllSpace(w)
    requires m == [] || !IsSpace(m[0])
    ensures TrimStart(w + m) == m
    decreases |w|
  {
    if |w| == 0 {
      assert w + m == m;
    } else {
      assert (w + m)[0] == w[0];
      assert (w + m)[1..] == w[1..] + m;
      TrimStartSkips(w[1..], m);
    }
  }

  /** A string with no white space at either end is its own trim. */
  lemma TrimUntouched(s: string)
    requires s == [] || (!IsSpace(s[0]) && !IsSpace(s[|s| - 1]))
    ensures Trim(s) == s
  {
  }

  /** ASCII upper-case letters mapped to lower case, everything else kept. */
  function LowerChar(c: char): char {
    if 'A' <= c <= 'Z' then (c as int + 32) as char else c
  }

  function Lower(s: string): (r: string)
    ensures |r| == |s|
  {
    seq(|s|, i requires 0 <= i < |s| => LowerChar(s[i]))
  }

  /** `k` occurs in `s` starting at index `i`. */
  predicate OccursAt(s: string, k: string, i: int) {
    0 <= i && i + |k| <= |s| && s[i..i + |k|] == k
  }

  /** `s.includes(k)`: a left-to-right search for `k` in `s`. */
  function Includes(s: string, k: string): bool
    decreases |s|
  {
    if |k| > |s| then false
    else if s[..|k|] == k then true
    else Includes(s[1..], k)
  }

  /** The search finds `k` exactly when `k` occurs somewhere in `s`. */
  lemma {:induction false} IncludesIff(s: string, k: string)
    ensures Includes(s, k) <==> exists i :: OccursAt(s, k, i)
    decreases |s|
  {
    if |k| > |s| {
    } else if s[..|k|] == k {
      assert OccursAt(s, k, 0);
    } else {
      IncludesIff(s[1..], k);
      assert forall i :: OccursAt(s[1..], k, i) <==> OccursAt(s, k, i + 1) by {
        forall i ensures OccursAt(s[1..], k, i) <==> OccursAt(s, k, i + 1) {
          if 0 <= i && i + |k| <= |s| - 1 {
            assert s[1..][i..i + |k|] == s[i + 1..i + 1 + |k|];
          }
        }
      }
      assert !OccursAt(s, k, 0);
      if exists i :: OccursAt(s, k, i) {
        var i :| OccursAt(s, k, i);
        assert OccursAt(s[1..], k, i - 1);
      }
    }
  }

  /** `s.endsWith(t)`. */
  predicate EndsWith(s: string, t: string) {
    |t| <= |s| && s[|s| - |t|..] == t
  }

  /** Number of occurrences of `c` in `s`. */
  function Count(s: string, c: char): nat
    decreases |s|
  {
    if |s| == 0 then 0 else (if s[0] == c then 1 else 0) + Count(s[1..], c)
  }

  /** Number of characters of `s` that belong to `cs`. */
  function CountIn(s: string, cs: set<char>): nat
    decreases |s|
  {
    if |s| == 0 then 0 else (if s[0] in cs then 1 else 0) + CountIn(s[1..], cs)
  }

  /** `a` can be obtained from `b` by deleting elements. */
  ghost predicate IsSubsequence<T>(a: seq<T>, b: seq<T>)
    decreases |b|
  {
    if |b| == 0 then |a| == 0
    else IsSubsequence(a, b[1..]) || (|a| > 0 && a[0] == b[0] && IsSubsequence(a[1..], b[1..]))
  }

  /** `s.replace(/[...]/g, '')`: every character of `bad` deleted, all other
      characters kept in order. */
  function Remove(s: string, bad: set<char>): (r: string)
    ensures |r| == |s| - CountIn(s, bad)
    ensures forall i :: 0 <= i < |r| ==> r[i] !in bad
    ensures IsSubsequence(r, s)
    ensures (forall i :: 0 <= i < |s| ==> s[i] !in bad) ==> r == s
    decreases |s|
  {
    if |s| == 0 then []
    else if s[0] in bad then Remove(s[1..], bad)
    else
      var r := [s[0]] + Remove(s[1..], bad);
      assert r[1..] == Remove(s[1..], bad);
      r
  }

  /** `s.replace(/c/g, rep)`: every occurrence of `c` replaced by `rep`. */
  function ReplaceAll(s: string, c: char, rep: string): string
    decreases |s|
  {
    if |s| == 0 then ""
    else (if s[0] == c then rep else [s[0]]) + ReplaceAll(s[1..], c, rep)
  }

  /** Replacement works piecewise. */
  lemma {:induction false} ReplaceAllAppend(a: string, b: string, c: char, rep: string)
    ensures ReplaceAll(a + b, c, rep) == ReplaceAll(a, c, rep) + ReplaceAll(b, c, rep)
    decreases |a|
  {
    if |a| == 0 {
      assert a + b == b;
    } else {
      assert (a + b)[0] == a[0];
      assert (a + b)[1..] == a[1..] + b;
      ReplaceAllAppend(a[1..], b, c, rep);
    }
  }

  /** On a single character, replacement is a lookup. */
  lemma ReplaceAllSingle(x: char, c: char, rep: string)
    ensures ReplaceAll([x], c, rep) == if x == c then rep else [x]
  {
    assert [x][1..] == [];
  }

  /** Replacing a character that does not occur changes nothing. */
  lemma {:induction false} ReplaceAllAbsent(s: string, c: char, rep: string)
    requires c !in s
    ensures ReplaceAll(s, c, rep) == s
    decreases |s|
  {
    if |s| > 0 {
      ReplaceAllAbsent(s[1..], c, rep);
    }
  }

  /** `xs.join(sep)`. */
  function Join(sep: string, xs: seq<string>): string
    decreases |xs|
  {
    if |xs| == 0 then ""
    else if |xs| == 1 then xs[0]
    else xs[0] + sep + Join(sep, xs[1..])
  }

  /** `s.split(sep)` for a one-character separator: the pieces between
      consecutive separators; never empty, and no piece holds the separator. */
  function Split(s: string, sep: char): (r: seq<string>)
    ensures |r| >= 1
    ensures forall i :: 0 <= i < |r| ==> sep !in r[i]
    decreases |s|
  {
    if |s| == 0 then [""]
    else
      var rest := Split(s[1..], sep);
      if s[0] == sep then [""] + rest
      else [[s[0]] + rest[0]] + rest[1..]
  }

  /** `split` yields one more piece than there are separators. */
  lemma {:induction false} SplitCount(s: string, sep: char)
    ensures |Split(s, sep)| == Count(s, sep) + 1
    decreases |s|
  {
    if |s| > 0 {
      SplitCount(s[1..], sep);
    }
  }

  /** Joining the pieces with the separator gives back the string. */
  lemma {:induction false} JoinSplit(s: string, sep: char)
    ensures Join([sep], Split(s, sep)) == s
    decreases |s|
  {
    if |s| > 0 {
      var rest := Split(s[1..], sep);
      JoinSplit(s[1..], sep);
      if s[0] == sep {
        assert ([""] + rest)[1..] == rest;
      } else {
        var r := [[s[0]] + rest[0]] + rest[1..];
        if |rest| == 1 {
          assert Join([sep], rest) == rest[0];
        } else {
          assert r[1..] == rest[1..];
          assert Join([sep], rest) == rest[0] + [sep] + Join([sep], rest[1..]);
        }
      }
    }
  }

  /** A needle without `sep`'s character occurs in `a + sep + b` exactly when
      it occurs in `a` or in `b`. */
  lemma IncludesAroundSeparator(a: string, b: string, sep: char, k: string)
    requires sep !in k
    ensures Includes(a + [sep] + b, k) <==> Includes(a, k) || Includes(b, k)
  {
    var s := a + [sep] + b;
    IncludesIff(s, k);
    IncludesIff(a, k);
    IncludesIff(b, k);
    if Includes(a, k) {
      var i :| OccursAt(a, k, i);
      OccursLeft(a, b, sep, k, i);
    }
    if Includes(b, k) {
      var i :| OccursAt(b, k, i);
      OccursRight(a, b, sep, k, i);
    }
    if Includes(s, k) {
      var i :| OccursAt(s, k, i);
      OccursAcross(a, b, sep, k, i);
    }
  }

  lemma OccursLeft(a: string, b: string, sep: char, k: string, i: int)
    requires OccursAt(a, k, i)
    ensures OccursAt(a + [sep] + b, k, i)
  {
    var s := a + [sep] + b;
    assert s[i..i + |k|] == a[i..i + |k|];
  }

  lemma OccursRight(a: string, b: string, sep: char, k: string, i: int)
    requires OccursAt(b, k, i)
    ensures OccursAt(a + [sep] + b, k, |a| + 1 + i)
  {
    var s := a + [sep] + b;
    assert s[|a| + 1..] == b;
    assert s[|a| + 1 + i..|a| + 1 + i + |k|] == b[i..i + |k|];
  }

  /** A match that avoids the separator lies wholly on one side of it. */
  lemma OccursAcross(a: string, b: string, sep: char, k: string, i: int)
    requires sep !in k && OccursAt(a + [sep] + b, k, i)
    ensures OccursAt(a, k, i) || OccursAt(b, k, i - |a| - 1)
  {
    var s := a + [sep] + b;
    assert s[|a|] == sep;
    assert forall j :: i <= j < i + |k| ==> s[j] == k[j - i];
    if i + |k| <= |a| {
      assert a[i..i + |k|] == s[i..i + |k|];
    } else {
      assert s[|a| + 1..] == b;
      assert b[i - |a| - 1..i - |a| - 1 + |k|] == s[i..i + |k|];
    }
  }

  /** A non-empty needle without the separator occurs in the joined text
      exactly when it occurs in one of the joined strings: joining cannot
      create or destroy a match. */
  lemma {:induction false} IncludesJoin(xs: seq<string>, sep: char, k: string)
    requires sep !in k && |k| > 0
    ensures Includes(Join([sep], xs), k) <==> exists i :: 0 <= i < |xs| && Includes(xs[i], k)
    decreases |xs|
  {
    if |xs| == 0 {
      IncludesIff("", k);
      assert !OccursAt("", k, 0);
    } else if |xs| > 1 {
      IncludesJoin(xs[1..], sep, k);
      IncludesAroundSeparator(xs[0], Join([sep], xs[1..]), sep, k);
      assert forall i :: 1 <= i < |xs| ==> xs[i] == xs[1..][i - 1];
      if exists i :: 0 <= i < |xs| && Includes(xs[i], k) {
        var i :| 0 <= i < |xs| && Includes(xs[i], k);
        if i > 0 {
          assert Includes(xs[1..][i - 1], k);
        }
      }
    }
  }
}

=== FILE: validation.dfy ===
/** The sanitisers and the numeric bounds of src/lib/validation.ts:
    `sanitizeHtml`, `sanitizeInput`, the page and limit query parameters of
    `paginationSchema`, and the score bound of `updateSessionSchema`. */
module Validation {
  import opened Wrappers
  import Text
  import Numbers
  import Escaping

  /** What `sanitizeHtml` writes for one character: the entity of
      `sanitizeForHTML`, except that `&` stays as it is. */
  function EntityButAmp(c: char): string {
    if c == '&' then [c] else Escaping.HtmlEntity(c)
  }

  /** The reference: each character replaced by `EntityButAmp` in one pass. */
  function EscapeButAmp(s: string): string
    decreases |s|
  {
    if |s| == 0 then "" else EntityButAmp(s[0]) + EscapeButAmp(s[1..])
  }

  /** `sanitizeHtml`: the five replacements of `sanitizeForHTML` after its
      ampersand pass, in the same order. */
  function SanitizeHtml(input: string): (r: string)
    ensures r == EscapeButAmp(input)
  {
    SanitizeHtmlIsEscapeButAmp(input);
    Escaping.PassesFrom(input, 1)
  }

  /** The chain of five replacements is the one-pass reference. */
  lemma {:induction false} SanitizeHtmlIsEscapeButAmp(s: string)
    ensures Escaping.PassesFrom(s, 1) == EscapeButAmp(s)
    decreases |s|
  {
    if |s| > 0 {
      assert s == [s[0]] + s[1..];
      Escaping.PassesFromAppend([s[0]], s[1..], 1);
      if s[0] == '&' {
        Escaping.EntityStays([s[0]], 1);
      } else {
        Escaping.CharPasses(s[0], 1);
      }
      SanitizeHtmlIsEscapeButAmp(s[1..]);
    }
  }

  /** The output holds no raw `<`, `>`, `"`, `'` or `/`. */
  lemma SanitizeHtmlSafe(s: string)
    ensures Escaping.RawHtmlFree(SanitizeHtml(s))
  {
    EscapeButAmpSafe(s);
  }

  lemma {:induction false} EscapeButAmpSafe(s: string)
    ensures Escaping.RawHtmlFree(EscapeButAmp(s))
    decreases |s|
  {
    if |s| > 0 {
      var e, rest := EntityButAmp(s[0]), EscapeButAmp(s[1..]);
      var r := e + rest;
      EscapeButAmpSafe(s[1..]);
      Escaping.EntityShape(s[0]);
      forall i | 0 <= i < |r|
        ensures r[i] == '&' || r[i] !in Escaping.HtmlOrder
      {
        if i >= |e| {
          assert r[i] == rest[i - |e|];
        }
      }
    }
  }

  /** Text with none of the five characters passes through unchanged. */
  lemma {:induction false} SanitizeHtmlPlain(s: string)
    requires forall i :: 0 <= i < |s| ==> s[i] == '&' || s[i] !in Escaping.HtmlOrder
    ensures SanitizeHtml(s) == s
    decreases |s|
  {
    if |s| > 0 {
      assert s == [s[0]] + s[1..];
      Escaping.PassesFromAppend([s[0]], s[1..], 1);
      if s[0] == '&' {
        Escaping.EntityStays([s[0]], 1);
      } else {
        Escaping.CharPasses(s[0], 1);
        Escaping.EntityShape(s[0]);
      }
      SanitizeHtmlPlain(s[1..]);
    }
  }

  /** Since the ampersand is kept, an escaped `<` and a literal `&lt;`
      come out the same: the output cannot be decoded back. */
  lemma SanitizeHtmlAmbiguous()
    ensures SanitizeHtml("<") == SanitizeHtml("&lt;") == "&lt;"
  {
    Escaping.CharPasses('<', 1);
    assert Escaping.Spelled("&lt;");
    Escaping.EntityStays("&lt;", 1);
  }

  /** The characters `sanitizeInput` deletes. */
  const InputChars: set<char> := {'<', '>', '"', '\'', '&'}

  /** `sanitizeInput` keeps at most this many characters. */
  const MaxInputLength := 1000

  /** `sanitizeInput`: trim, delete the five characters, keep the first 1000.
      The result is the longest prefix of the cleaned text that fits. */
  function SanitizeInput(input: string): (r: string)
    ensures |r| <= MaxInputLength
    ensures forall i :: 0 <= i < |r| ==> r[i] !in InputChars
    ensures r <= Text.Remove(Text.Trim(input), InputChars)
    ensures |r| == Numbers.MinInt(MaxInputLength, |Text.Remove(Text.Trim(input), InputChars)|)
  {
    var cleaned := Text.Remove(Text.Trim(input), InputChars);
    if |cleaned| <= MaxInputLength then cleaned else cleaned[..MaxInputLength]
  }

  /** Input that is already trimmed, free of the five characters and short
      enough comes back unchanged. */
  lemma SanitizeInputKeepsClean(s: string)
    requires s == [] || (!Text.IsSpace(s[0]) && !Text.IsSpace(s[|s| - 1]))
    requires forall i :: 0 <= i < |s| ==> s[i] !in InputChars
    requires |s| <= MaxInputLength
    ensures SanitizeInput(s) == s
  {
    Text.TrimUntouched(s);
  }

  /** Deleting after trimming can expose white space at the end, so the
      output is not always trimmed and sanitising again can change it:
      `"a &"` becomes `"a "`, which becomes `"a"`. */
  lemma SanitizeInputNotIdempotent(a: char)
    requires !Text.IsSpace(a) && a !in InputChars
    ensures SanitizeInput([a, ' ', '&']) == [a, ' ']
    ensures SanitizeInput([a, ' ']) == [a]
  {
    var s := [a, ' ', '&'];
    assert Text.Remove(s[2..], InputChars) == [];
    assert Text.Remove(s[1..], InputChars) == [' '];
    assert Text.Remove(s, InputChars) == [a, ' '];
    Text.TrimUntouched(s);
    var t := [a, ' '];
    assert Text.Remove([a], InputChars) == [a];
    assert t[..1] == [a];
    assert Text.TrimEnd(t) == [a];
    assert Text.Trim(t) == [a];
  }

  const DefaultPage := 1
  const DefaultLimit := 10
  const MaxLimit := 100
  const PageError := "Page must be positive"
  const LimitError := "Limit must be between 1 and 100"

  /** The transform of a query parameter: `val ? parseInt(val, 10) : default`.
      An absent or empty parameter gives the default; `None` stands for `NaN`. */
  function QueryNumber(val: Option<string>, default: int): (r: Option<int>)
    ensures val.None? || val.value == "" ==> r == Some(default)
    ensures r.None? <==> val.Some? && val.value != ""
                         && Numbers.LeadingDigits(Numbers.SignStripped(Text.TrimStart(val.value))) == []
  {
    if val.None? || val.value == "" then Some(default) else Numbers.ParseInt(val.value)
  }

  /** `paginationSchema.page`: the transformed value must be positive. */
  function ValidatePage(page: Option<string>): (r: Result<int, string>)
    ensures r.Success? ==> r.value > 0
    ensures r.Success? <==> QueryNumber(page, DefaultPage).Some? && QueryNumber(page, DefaultPage).value > 0
    ensures r.Success? ==> QueryNumber(page, DefaultPage) == Some(r.value)
    ensures r.Failure? ==> r.error == PageError
  {
    match QueryNumber(page, DefaultPage)
    case Some(n) => if n > 0 then Success(n) else Failure(PageError)
    case None => Failure(PageError)
  }

  /** `paginationSchema.limit`: the transformed value must lie in 1..100. */
  function ValidateLimit(limit: Option<string>): (r: Result<int, string>)
    ensures r.Success? ==> 0 < r.value <= MaxLimit
    ensures r.Success? <==> QueryNumber(limit, DefaultLimit).Some? && 0 < QueryNumber(limit, DefaultLimit).value <= MaxLimit
    ensures r.Success? ==> QueryNumber(limit, DefaultLimit) == Some(r.value)
    ensures r.Failure? ==> r.error == LimitError
  {
    match QueryNumber(limit, DefaultLimit)
    case Some(n) => if n > 0 && n <= MaxLimit then Success(n) else Failure(LimitError)
    case None => Failure(LimitError)
  }

  /** A missing or empty parameter takes its default. */
  lemma PaginationDefaults()
    ensures ValidatePage(None) == ValidatePage(Some("")) == Success(DefaultPage)
    ensures ValidateLimit(None) == ValidateLimit(Some("")) == Success(DefaultLimit)
  {
  }

  /** A page written in decimal is accepted exactly when it is positive, and
      then read back as itself; a negative page is refused. */
  lemma PageRoundTrip(n: nat)
    ensures ValidatePage(Some(Numbers.NatToString(n))) == if n > 0 then Success(n) else Failure(PageError)
    ensures ValidatePage(Some("-" + Numbers.NatToString(n))) == Failure(PageError)
  {
    Numbers.ParseIntRoundTrip(n);
    QueryNumberOf(Numbers.NatToString(n), DefaultPage);
    QueryNumberOf("-" + Numbers.NatToString(n), DefaultPage);
  }

  /** A limit written in decimal is accepted exactly when it lies in 1..100,
      and then read back as itself; a negative limit is refused. */
  lemma LimitRoundTrip(n: nat)
    ensures ValidateLimit(Some(Numbers.NatToString(n))) == if 0 < n <= MaxLimit then Success(n) else Failure(LimitError)
    ensures ValidateLimit(Some("-" + Numbers.NatToString(n))) == Failure(LimitError)
  {
    Numbers.ParseIntRoundTrip(n);
    QueryNumberOf(Numbers.NatToString(n), DefaultLimit);
    QueryNumberOf("-" + Numbers.NatToString(n), DefaultLimit);
  }

  /** A non-empty parameter is parsed; the default does not apply. */
  lemma QueryNumberOf(s: string, default: int)
    requires |s| > 0
    ensures QueryNumber(Some(s), default) == Numbers.ParseInt(s)
  {
  }

  /** `parseInt` stops at the first non-digit, so a page such as `"2abc"`
      is accepted as page 2. */
  lemma PageIgnoresTail(n: nat, rest: string)
    requires rest == [] || !Numbers.IsDigit(rest[0])
    ensures ValidatePage(Some(Numbers.NatToString(n) + rest)) == if n > 0 then Success(n) else Failure(PageError)
  {
    Numbers.ParseIntIgnoresTail(n, rest);
    QueryNumberOf(Numbers.NatToString(n) + rest, DefaultPage);
  }

  /** Every spelling `parseInt` reads decides the page: white space, a `+`
      sign and leading zeros are accepted around a positive page, a `-` sign
      or a zero page is refused. */
  lemma PageOfSpelling(w: string, sign: string, zeros: string, n: nat, rest: string)
    requires Numbers.WellSpelled(w, sign, zeros, rest)
    ensures ValidatePage(Some(Numbers.Spelled(w, sign, zeros, n, rest)))
            == if Numbers.Signed(sign, n) > 0 then Success(n) else Failure(PageError)
  {
    Numbers.ParseIntReads(w, sign, zeros, n, rest);
    QueryNumberOf(Numbers.Spelled(w, sign, zeros, n, rest), DefaultPage);
  }

  /** Every spelling `parseInt` reads decides the limit in the same way,
      with 1..100 as the accepted range. */
  lemma LimitOfSpelling(w: string, sign: string, zeros: string, n: nat, rest: string)
    requires Numbers.WellSpelled(w, sign, zeros, rest)
    ensures ValidateLimit(Some(Numbers.Spelled(w, sign, zeros, n, rest)))
            == if 0 < Numbers.Signed(sign, n) <= MaxLimit then Success(n) else Failure(LimitError)
  {
    Numbers.ParseIntReads(w, sign, zeros, n, rest);
    QueryNumberOf(Numbers.Spelled(w, sign, zeros, n, rest), DefaultLimit);
  }

  /** Conversely, a page given in the query and accepted is spelled as that
      page, with no `-` sign. */
  lemma PageAccepted(s: string) returns (w: string, sign: string, zeros: string, rest: string)
    requires s != [] && ValidatePage(Some(s)).Success?
    ensures Numbers.WellSpelled(w, sign, zeros, rest) && sign != "-"
    ensures s == Numbers.Spelled(w, sign, zeros, ValidatePage(Some(s)).value, rest)
  {
    QueryNumberOf(s, DefaultPage);
    var n;
    w, sign, zeros, n, rest := Numbers.ParseIntSplit(s);
  }

  /** Conversely, a limit given in the query and accepted is spelled as that
      limit, with no `-` sign. */
  lemma LimitAccepted(s: string) returns (w: string, sign: string, zeros: string, rest: string)
    requires s != [] && ValidateLimit(Some(s)).Success?
    ensures Numbers.WellSpelled(w, sign, zeros, rest) && sign != "-"
    ensures s == Numbers.Spelled(w, sign, zeros, ValidateLimit(Some(s)).value, rest)
  {
    QueryNumberOf(s, DefaultLimit);
    var n;
    w, sign, zeros, n, rest := Numbers.ParseIntSplit(s);
  }

  /** `updateSessionSchema.score`: a whole number from 0 to 100. */
  predicate ScoreAccepted(score: real) {
    score.Floor as real == score && 0.0 <= score <= 100.0
  }
}

=== FILE: wrappers.dfy ===
/** The wrappers used across the model: `Option` for the source's
    `null`/`undefined`, `Result` for validation outcomes. */
module Wrappers {

  datatype Option<+T> = None | Some(value: T)

  datatype Result<+R, +E> = Success(value: R) | Failure(error: E)
}
